=== FILE: README.md ===
# Data cache and StringUtil, modelled in Dafny

This project models two modules of the AGF-ts game framework and proves
properties of them:

- **`Data`**: a write-back cache in front of a key/value DataStore. `Get` loads
  a key until it holds a value (or a pending change) and then answers from the
  cache. `Set`, `Delete`, `Increment` and
  `MarkDirty` change only the cache and mark the key dirty. `Save` and
  `SaveAll` write dirty keys to the store. The module declares two signals,
  `Success` and `Failed`, tagged with a DataStore method name; the model
  records one such event per store call (see below).
- **`StringUtil`**: trimming, case-insensitive comparison, whitespace removal,
  prefix/suffix/substring tests, character and byte arrays, camel/Pascal/snake/
  kebab case conversion, Lua-pattern escaping and an append/prepend string
  builder.

## Files and modules

| file | module | contents |
|---|---|---|
| `wrappers.dfy` | `Wrappers` | `Option` (undefined / a value) and `Result` (a settled promise) |
| `data.dfy` | `Data` | cache state, the store, the event log, and every `Data` operation |
| `data_properties.dfy` | `DataProperties` | the cache invariant, properties across several calls, and concrete scenarios of the model's own on the key "coins" |
| `string_util.dfy` | `StringUtil` | every `StringUtil` function except the case converters, plus `StringBuilder` |
| `string_case.dfy` | `StringCase` | `ToCamelCase`, `ToPascalCase`, `ToSnakeCase`, `ToKebabCase` |

## How `Data` is modelled

A `Data` instance is a pure value, `State(cache, store, log)`:

- `cache` maps a key to an `Entry(value, loaded, dirty)`. A key missing from the
  map is `Unloaded`.
- `store` is the DataStore's contents. A key missing from it holds undefined.
- `log` is the sequence of `Success(method, key)` and `Failed(method, key,
  errorText)` events fired so far.

Every store call appends exactly one event to the log. So "no store call was
made" is stated as "the log is unchanged". This is a modelling choice: the
declarations only name the two signals and say nothing about which store calls
fire them. The log therefore serves both as a count of
store calls and as a stand-in for the signals; a load, too, is recorded as a
`GetAsync` event. Whether the store answers is a
parameter of each operation: `Up`, or `Down(errorText)`. `SaveAll` takes one
reply per key. Every operation returns `Step(state, result)`, where `result` is
`Ok(value)` or `Err(error)`. This mirrors the promise each method returns.

The invariant `Data.Valid` holds of every state the operations produce. It
says two things:

- a key with a value or a pending change has been loaded;
- a loaded key without a pending change holds exactly what the store holds.

Decisions taken where the declarations leave room:

- `Get` calls the store only when the entry holds no value and has no pending
  change. This follows the doc-comment at
  `src/Server/Modules/Data/index.d.ts:29-31`. The default value is returned but
  not cached, so a later `Get` with another default still sees the store.
- `Set` on a key that was never loaded loads it first. If that load fails, the
  whole call fails (`LoadFailure`) and the cache is unchanged.
- `Save` writes with `SetAsync`, or with `RemoveAsync` when the cached value is
  undefined. A load is reported as `GetAsync`.
- `MarkDirty` on a key that was never loaded does nothing. Marking it would let
  the next save overwrite a store value that was never read.
- `Increment` first checks the delta, then reads the value as `Get` does, then
  checks the value's type, and then writes the sum as `Set` does.

## Model

Source paths are relative to the repository root.

| member | source | states |
|---|---|---|
| Data.Load | src/Server/Modules/Data/index.d.ts:28-31 | a load makes exactly one `GetAsync` call and never writes the store; on success it logs `Success(GetAsync, key)` and caches the stored value, loaded and clean; on failure it logs `Failed(GetAsync, key, text)`, rejects with the error text and leaves the cache as it was |
| Data.Get | src/Server/Modules/Data/index.d.ts:27-40 | a key holding a value, or holding undefined with a pending change, is answered from the cache (the default for undefined) with no store call and no change; otherwise exactly one `GetAsync` call, logged as `Success` or `Failed` by the reply; on success the answer is the stored value, or the default when the store holds undefined; it fails exactly when that load fails, and then the cache is unchanged; the store and other keys never change |
| Data.Set | src/Server/Modules/Data/index.d.ts:42-56 | the store never changes; a loaded key is written with no store call; a never-loaded key costs exactly one load first, logged as `Success` or `Failed` by the reply; success leaves the key holding the value, loaded and dirty; the call fails exactly when that first load fails, and then the cache is unchanged |
| Data.Delete | src/Server/Modules/Data/index.d.ts:58-64 | every call is exactly `Set(key, undefined)`; the store is not written and other keys are untouched; on success the key holds undefined and is dirty; it fails exactly when a never-loaded key cannot be read, and then the cache is unchanged |
| Data.Increment | src/Server/Modules/Data/index.d.ts:66-73 | it fails exactly when the delta is not a number, the needed read fails, or the current value (cached, or read from the store) is not a number, and that last case fails with `TypeMismatch` whichever way the value was obtained; a non-number delta, or a non-number value already cached, fails with no change at all; a failure after the delta check leaves exactly what the read left, so a value read from the store stays cached; on success the new value is the current value (0 for undefined) plus the delta, and the key is dirty; a key whose entry holds a value or a pending change needs no store call |
| Data.Save | src/Server/Modules/Data/index.d.ts:43-46 | a clean key is a no-op; a dirty key makes one `SetAsync` (`RemoveAsync` for undefined) call reported by one event; success puts the cached value in the store and clears the dirty flag; failure keeps the key dirty and the store unchanged; the cached value, other keys and their stored values never change |
| Data.MarkDirty | src/Server/Modules/Data/index.d.ts:106-113 | no cached value, no store value and no log entry changes; exactly the given key becomes dirty, if it is loaded |
| Data.SaveAll | src/Server/Modules/Data/index.d.ts:100-104 | every key dirty at the start gets exactly one save attempt and one `Success` or `Failed` event, and the log gains nothing else; a successful key is stored and clean; a failed key stays dirty and is reported in `failed`; keys not dirty are untouched |
| DataProperties.EmptyIsValid | src/Server/Modules/Data/index.d.ts:16 | a fresh instance over any store satisfies the cache invariant |
| DataProperties.ApplyPreservesValid | src/Server/Modules/Data/index.d.ts:48-51 | every single call keeps the invariant: nothing is cached unread, and clean entries agree with the store |
| DataProperties.RunPreservesValid | src/Server/Modules/Data/index.d.ts:48-51 | any sequence of `Get`, `Set`, `Delete`, `Increment`, `Save` and `MarkDirty` calls keeps the invariant (`SaveAll` is covered by `SweepPreservesValid`) |
| DataProperties.SweepPreservesValid | src/Server/Modules/Data/index.d.ts:100-104 | the state `SaveAll` leaves behind satisfies the invariant |
| DataProperties.DirtyClearedOnlyBySave | src/Server/Modules/Data/index.d.ts:106-113 | a dirty key becomes clean only through a successful `Save` of that key |
| DataProperties.GetReturnsStoredOrDefault | src/Server/Modules/Data/index.d.ts:28-40 | on a valid state, `Get` of a key without a pending change answers the stored value, or the default for undefined, whether or not it was cached: always when the store is up, and whenever the call succeeds for any reply |
| DataProperties.SetThenGet | src/Server/Modules/Data/index.d.ts:43-44 | after a successful `Set`, `Get` returns the written value (or the default for undefined) with no store call |
| DataProperties.GetThenGetIsCached | src/Server/Modules/Data/index.d.ts:29-32 | once `Get` has cached a value, the next `Get` returns it with no store call and no change |
| DataProperties.DeleteThenSaveRemoves | src/Server/Modules/Data/index.d.ts:58-64 | after a successful `Delete(k)`, which is `Set(k, undefined)`, a successful save removes `k` from the store and reports `Success(RemoveAsync, k)` (that every `Delete` call equals `Set(k, undefined)` is `Data.Delete`'s own contract) |
| DataProperties.IncrementIsGetThenSet | src/Server/Modules/Data/index.d.ts:66-73 | a successful `Increment` equals a `Get` followed by a `Set` of current + delta |
| DataProperties.SaveThenSaveIsNoOp | src/Server/Modules/Data/index.d.ts:43-46 | after a successful save, saving the key again makes no store call and changes nothing |
| DataProperties.MarkDirtyThenSaveWrites | src/Server/Modules/Data/index.d.ts:106-113 | after `MarkDirty` of a loaded key, the next successful save writes its cached value even if it did not change |
| DataProperties.WriteIsPersistedOrDirty | src/Server/Modules/Data/index.d.ts:43-46 | a cached write is never lost: through any sequence of `Get`, `Set`, `Delete`, `Increment`, `Save` and `MarkDirty` calls that do not write the key, its cached value stays, and it is always either in the store or still dirty |
| DataProperties.CoinsScenario | src/Server/Modules/Data/index.d.ts:27-56 | `Get("coins", 0)` on an empty store answers 0; `Set("coins", 50)` makes no store call; `Save("coins")` stores 50 and reports `Success(SetAsync, "coins")` |
| DataProperties.OfflineSetScenario | src/Server/Modules/Data/index.d.ts:48-51 | a first `Set` while the store is down fails, reports `Failed(GetAsync, ...)` and leaves the key unloaded |
| DataProperties.IncrementScenario | src/Server/Modules/Data/index.d.ts:66-73 | `Increment("coins", 5)` on a cached 10 gives 15 and dirties the key; on a cached text value it fails and changes nothing; on a text value still in the store it fails after one `GetAsync` read, whose value stays cached and clean |
| StringUtil.TrimStart | src/Shared/Modules/StringUtil/index.d.ts:22-28 | the result is a suffix of the input; everything dropped is whitespace; the result does not start with whitespace |
| StringUtil.TrimEnd | src/Shared/Modules/StringUtil/index.d.ts:30-36 | the result is a prefix of the input; everything dropped is whitespace; the result does not end with whitespace |
| StringUtil.Trim | src/Shared/Modules/StringUtil/index.d.ts:14-20 | the result is a contiguous slice of the input; everything before and after it is whitespace; it neither starts nor ends with whitespace |
| StringUtil.TrimCharacterised | src/Shared/Modules/StringUtil/index.d.ts:14-20 | any slice with only whitespace around it and no whitespace at its ends is the result of `Trim` |
| StringUtil.TrimmedIsFixed | src/Shared/Modules/StringUtil/index.d.ts:14-20 | a string with no whitespace at either end is its own trim |
| StringUtil.TrimIdempotent | src/Shared/Modules/StringUtil/index.d.ts:14-20 | trimming twice is trimming once |
| StringUtil.TrimOrderIrrelevant | src/Shared/Modules/StringUtil/index.d.ts:14-36 | `TrimStart` after `TrimEnd` is `Trim` |
| StringUtil.TrimStartCharacterised | src/Shared/Modules/StringUtil/index.d.ts:22-28 | a suffix with only whitespace before it and no leading whitespace is the result of `TrimStart` |
| StringUtil.TrimEndCharacterised | src/Shared/Modules/StringUtil/index.d.ts:30-36 | a prefix with only whitespace after it and no trailing whitespace is the result of `TrimEnd` |
| StringUtil.TrimExample | src/Shared/Modules/StringUtil/index.d.ts:17 | `Trim("  hello world  ")` is `"hello world"` |
| StringUtil.TrimStartExample | src/Shared/Modules/StringUtil/index.d.ts:25 | `TrimStart("  hello world  ")` is `"hello world  "` |
| StringUtil.TrimEndExample | src/Shared/Modules/StringUtil/index.d.ts:33 | `TrimEnd("  hello world  ")` is `"  hello world"` |
| StringUtil.Lower | src/Shared/Modules/StringUtil/index.d.ts:38-47 | lower-casing keeps the length and maps each character on its own: an ASCII upper-case letter to its lower-case partner, anything else to itself |
| StringUtil.EqualsIgnoreCase | src/Shared/Modules/StringUtil/index.d.ts:38-47 | the answer is true exactly when both strings are equal after lower-casing |
| StringUtil.EqualsIgnoreCaseExample | src/Shared/Modules/StringUtil/index.d.ts:41 | `"HELLo woRLD"` and `"hEllo wORLd"` are equal after lower-casing |
| StringUtil.RemoveWhitespace | src/Shared/Modules/StringUtil/index.d.ts:49-55 | the result holds no whitespace and is no longer than the input |
| StringUtil.RemoveWhitespaceAppend | src/Shared/Modules/StringUtil/index.d.ts:49-55 | removing whitespace from a concatenation concatenates the results, so characters keep their order |
| StringUtil.RemoveWhitespaceOfSpaces | src/Shared/Modules/StringUtil/index.d.ts:49-55 | a string of whitespace only disappears entirely |
| StringUtil.RemoveWhitespaceChar | src/Shared/Modules/StringUtil/index.d.ts:49-55 | a single character is dropped exactly when it is whitespace |
| StringUtil.RemoveWhitespaceKeepsText | src/Shared/Modules/StringUtil/index.d.ts:49-55 | a string without whitespace is unchanged |
| StringUtil.RemoveWhitespaceExample | src/Shared/Modules/StringUtil/index.d.ts:52 | `"  hello World!\n"` becomes `"helloWorld!"` |
| StringUtil.StartsWith | src/Shared/Modules/StringUtil/index.d.ts:65-71 | true exactly when the string is the prefix followed by something |
| StringUtil.EndsWith | src/Shared/Modules/StringUtil/index.d.ts:57-63 | true exactly when the string is something followed by the suffix |
| StringUtil.Contains | src/Shared/Modules/StringUtil/index.d.ts:73-79 | true exactly when the part occurs at some position of the string |
| StringUtil.OccursIffSplit | src/Shared/Modules/StringUtil/index.d.ts:73-79 | the part occurs at some position exactly when the string is something, the part, then something |
| StringUtil.StartsOrEndsWithImpliesContains | src/Shared/Modules/StringUtil/index.d.ts:57-79 | a prefix or a suffix is also contained |
| StringUtil.SearchExamples | src/Shared/Modules/StringUtil/index.d.ts:60-76 | `"Hello world"` ends with `"rld"`, starts with `"He"` and contains `"lo wor"` |
| StringUtil.ToCharArray | src/Shared/Modules/StringUtil/index.d.ts:81-87 | one single-character string per input character, in order |
| StringUtil.ToCharArrayConcat | src/Shared/Modules/StringUtil/index.d.ts:81-87 | joining the character array gives back the input |
| StringUtil.ToCharArrayExample | src/Shared/Modules/StringUtil/index.d.ts:84 | `"Hello"` gives `{"H","e","l","l","o"}` |
| StringUtil.ToByteArray | src/Shared/Modules/StringUtil/index.d.ts:89-95 | one number per character: that character's code |
| StringUtil.ByteArrayToString | src/Shared/Modules/StringUtil/index.d.ts:97-103 | a success has one character per entry, whose code is that entry; a failure names the first entry outside 0..255 |
| StringUtil.BytesRoundTrip | src/Shared/Modules/StringUtil/index.d.ts:89-103 | a string built from bytes is a byte string whose byte array is those bytes |
| StringUtil.ByteArrayToStringTotal | src/Shared/Modules/StringUtil/index.d.ts:97-103 | the conversion succeeds exactly when every entry is in 0..255 |
| StringUtil.ByteRoundTrip | src/Shared/Modules/StringUtil/index.d.ts:89-103 | converting a byte string to bytes and back gives the same string |
| StringUtil.ByteArrayExamples | src/Shared/Modules/StringUtil/index.d.ts:92-100 | `"Hello"` gives `{72,101,108,108,111}`; `{97,98,99}` gives `"abc"`; `{97,256}` fails at index 1 |
| StringUtil.Escape | src/Shared/Modules/StringUtil/index.d.ts:139-147 | the escape is at least as long as the input and at most twice as long (the per-character rule is `EscapeChar` with `EscapeAppend`) |
| StringUtil.EscapeIsLiteral | src/Shared/Modules/StringUtil/index.d.ts:139-147 | the escape is a Lua pattern of fixed characters only, and the one string it matches is the input |
| StringUtil.EscapeAppend | src/Shared/Modules/StringUtil/index.d.ts:139-147 | escaping a concatenation concatenates the escapes |
| StringUtil.EscapeKeepsPlain | src/Shared/Modules/StringUtil/index.d.ts:139-147 | a string without magic characters is its own escape |
| StringUtil.EscapeChar | src/Shared/Modules/StringUtil/index.d.ts:139-147 | a magic character gains a `%` in front; any other character is copied |
| StringUtil.EscapeCons | src/Shared/Modules/StringUtil/index.d.ts:139-147 | the escape of a character followed by more is that character's escape followed by the rest's |
| StringUtil.EscapeTailExample | src/Shared/Modules/StringUtil/index.d.ts:144 | `" ^-^"` escapes to `" %^%-%^"` |
| StringUtil.EscapeExample | src/Shared/Modules/StringUtil/index.d.ts:144 | `"Hello. World$ ^-^"` escapes to `"Hello%. World%$ %^%-%^"` |
| StringUtil.NewStringBuilder | src/Shared/Modules/StringUtil/index.d.ts:163 | a new builder builds the empty string |
| StringUtil.ToString | src/Shared/Modules/StringUtil/index.d.ts:10 | the built string is empty for no parts, starts with the first part and ends with the last |
| StringUtil.ToStringJoin | src/Shared/Modules/StringUtil/index.d.ts:149-163 | building from two lists of parts, one after the other, gives the two built strings joined |
| StringUtil.Append | src/Shared/Modules/StringUtil/index.d.ts:8 | `Append(x)` adds `x` at the end of the built string |
| StringUtil.Prepend | src/Shared/Modules/StringUtil/index.d.ts:9 | `Prepend(x)` adds `x` at the front of the built string |
| StringUtil.BuilderOrder | src/Shared/Modules/StringUtil/index.d.ts:149-163 | appends concatenate in call order, prepends stack at the front, and an append then a prepend gives prefix + old + suffix |
| StringUtil.BuilderExample | src/Shared/Modules/StringUtil/index.d.ts:155-161 | `Append("world")` then `Prepend("Hello ")` builds `"Hello world"` |
| StringCase.JoinWords | src/Shared/Modules/StringUtil/index.d.ts:105-119 | joining words never lengthens the string, and a string that starts with a letter keeps that first letter |
| StringCase.JoinWordsKeepsLetters | src/Shared/Modules/StringUtil/index.d.ts:105-119 | joining words keeps every non-separator character, in order, up to case |
| StringCase.JoinWordsAfterRun | src/Shared/Modules/StringUtil/index.d.ts:105-119 | a separator run of any length followed by a character leaves just that character, upper-cased |
| StringCase.JoinWordsShape | src/Shared/Modules/StringUtil/index.d.ts:105-111 | after joining, a separator is followed only by separators |
| StringCase.JoinWordsKeepsWord | src/Shared/Modules/StringUtil/index.d.ts:105-111 | a word without separators is copied unchanged |
| StringCase.JoinWordsCapitalises | src/Shared/Modules/StringUtil/index.d.ts:105-111 | a separator run of any length followed by a word leaves the word with its first letter upper-cased |
| StringCase.JoinWordsLastWord | src/Shared/Modules/StringUtil/index.d.ts:105-111 | a separator run followed by a final word leaves that word with its first letter upper-cased |
| StringCase.JoinWordsFixed | src/Shared/Modules/StringUtil/index.d.ts:105-111 | a string with separators only at its end is left unchanged |
| StringCase.ToCamelCase | src/Shared/Modules/StringUtil/index.d.ts:105-111 | camelCase output is no longer than the input, does not start upper-case, keeps separators only at its end, and holds the input's letters in order, up to case |
| StringCase.ToPascalCase | src/Shared/Modules/StringUtil/index.d.ts:113-119 | PascalCase output is no longer than the input, does not start lower-case, keeps separators only at its end, and holds the input's letters in order, up to case |
| StringCase.CamelPascalAgree | src/Shared/Modules/StringUtil/index.d.ts:105-119 | camelCase and PascalCase of a string differ only in the case of the first character |
| StringCase.CamelIdempotent | src/Shared/Modules/StringUtil/index.d.ts:105-111 | converting camelCase output to camelCase changes nothing |
| StringCase.PascalIdempotent | src/Shared/Modules/StringUtil/index.d.ts:113-119 | converting PascalCase output to PascalCase changes nothing |
| StringCase.CollapseSeparators | src/Shared/Modules/StringUtil/index.d.ts:121-137 | collapsing gives an empty string exactly for an empty input, and starts with the delimiter exactly when the input starts with a separator (otherwise with the same character) |
| StringCase.CollapseKeepsLetters | src/Shared/Modules/StringUtil/index.d.ts:121-137 | collapsing keeps every non-separator character, in order |
| StringCase.CollapseAfterRun | src/Shared/Modules/StringUtil/index.d.ts:121-137 | a separator run of any length becomes one delimiter |
| StringCase.CollapseShape | src/Shared/Modules/StringUtil/index.d.ts:121-137 | after collapsing, no two separators are adjacent and each is the chosen delimiter |
| StringCase.CollapseKeepsWord | src/Shared/Modules/StringUtil/index.d.ts:121-137 | a word without separators is copied unchanged |
| StringCase.CollapseSeparatedWord | src/Shared/Modules/StringUtil/index.d.ts:121-137 | a separator run followed by a word becomes one delimiter followed by the word |
| StringCase.CollapseLastWord | src/Shared/Modules/StringUtil/index.d.ts:121-137 | a separator run followed by a final word becomes one delimiter followed by the word |
| StringCase.CollapseFixed | src/Shared/Modules/StringUtil/index.d.ts:121-137 | a string of single delimiters is left unchanged |
| StringCase.SplitHumps | src/Shared/Modules/StringUtil/index.d.ts:121-137 | splitting keeps the first character |
| StringCase.SplitHumpsAppend | src/Shared/Modules/StringUtil/index.d.ts:121-137 | splitting a concatenation splits each part and puts one `d` between them exactly when the first ends in a character that is neither upper-case nor a separator and the second starts upper-case; with `SplitHumpsFixed`, this fixes the result for every input |
| StringCase.SplitHumpsKeepsLetters | src/Shared/Modules/StringUtil/index.d.ts:121-137 | splitting only inserts separators: the non-separator characters are those of the input, in order |
| StringCase.SplitHumpsLeavesNoHumps | src/Shared/Modules/StringUtil/index.d.ts:121-137 | afterwards, an upper-case letter follows only another upper-case letter, a separator, or nothing |
| StringCase.SplitHumpsKeepsSeparators | src/Shared/Modules/StringUtil/index.d.ts:121-137 | splitting adds no doubled separator and no separator other than the delimiter |
| StringCase.SplitHumpsFixed | src/Shared/Modules/StringUtil/index.d.ts:121-137 | a string with no lower-to-upper boundary is left unchanged |
| StringCase.Delimited | src/Shared/Modules/StringUtil/index.d.ts:121-137 | the result has no upper-case letter, no doubled separator, and only the chosen delimiter; its non-separator characters are exactly the input's, in order, lower-cased; where the word breaks go is stated by `DelimitedWordsAppend` |
| StringCase.DelimitedWordsAppend | src/Shared/Modules/StringUtil/index.d.ts:121-137 | for two pieces without separators, the result is each piece delimited on its own, with one delimiter between them exactly when they meet at a lower-to-upper boundary |
| StringCase.ToSnakeCase | src/Shared/Modules/StringUtil/index.d.ts:121-128 | snake_case output has no upper-case letter, no hyphen and no doubled underscore; its non-separator characters are exactly the input's, in order, lower-cased; where the word breaks go is stated by `DelimitedWordsAppend` |
| StringCase.ToKebabCase | src/Shared/Modules/StringUtil/index.d.ts:130-137 | kebab-case output has no upper-case letter, no underscore and no doubled hyphen; its non-separator characters are exactly the input's, in order, lower-cased; where the word breaks go is stated by `DelimitedWordsAppend` |
| StringCase.DelimitedIdempotent | src/Shared/Modules/StringUtil/index.d.ts:121-137 | converting delimited output again changes nothing |
| StringCase.SnakeIdempotent | src/Shared/Modules/StringUtil/index.d.ts:121-128 | converting snake_case output to snake_case changes nothing |
| StringCase.KebabIdempotent | src/Shared/Modules/StringUtil/index.d.ts:130-137 | converting kebab-case output to kebab-case changes nothing |
| StringCase.CollapseHyphenates | src/Shared/Modules/StringUtil/index.d.ts:121-137 | collapsing to `-` is collapsing to `_` and then turning `_` into `-` |
| StringCase.SplitHumpsHyphenates | src/Shared/Modules/StringUtil/index.d.ts:121-137 | splitting with `-` is splitting with `_` and then turning `_` into `-` |
| StringCase.KebabIsHyphenatedSnake | src/Shared/Modules/StringUtil/index.d.ts:121-137 | kebab-case is snake_case with each `_` replaced by `-` |
| StringCase.JoinThreeWords | src/Shared/Modules/StringUtil/index.d.ts:105-119 | three words joined by separator runs give the first word followed by the other two, each capitalised |
| StringCase.CollapseThreeWords | src/Shared/Modules/StringUtil/index.d.ts:121-137 | three words joined by separator runs give the words joined by single delimiters |
| StringCase.JoinExample | src/Shared/Modules/StringUtil/index.d.ts:105-119 | joining `"Hello_world-abc"` gives `"HelloWorldAbc"` |
| StringCase.CamelExample | src/Shared/Modules/StringUtil/index.d.ts:108 | `ToCamelCase("Hello_world-abc")` is `"helloWorldAbc"` |
| StringCase.PascalExample | src/Shared/Modules/StringUtil/index.d.ts:116 | `ToPascalCase("Hello_world-abc")` is `"HelloWorldAbc"` |
| StringCase.CollapseExample | src/Shared/Modules/StringUtil/index.d.ts:124 | collapsing `"Hello_world-abc"` with `_` gives `"Hello_world_abc"` |
| StringCase.LowerCollapsedExample | src/Shared/Modules/StringUtil/index.d.ts:124 | splitting and lower-casing `"Hello_world_abc"` gives `"hello_world_abc"` |
| StringCase.SnakeExample | src/Shared/Modules/StringUtil/index.d.ts:124 | `ToSnakeCase("Hello_world-abc")` is `"hello_world_abc"` |
| StringCase.KebabExample | src/Shared/Modules/StringUtil/index.d.ts:133 | `ToKebabCase("Hello_world-abc")` is `"hello-world-abc"` |
| StringCase.CamelRunExample | src/Shared/Modules/StringUtil/index.d.ts:105-111 | `ToCamelCase("hello__world")` is `"helloWorld"`: a run of two separators is dropped like one |
| StringCase.CollapseRunExample | src/Shared/Modules/StringUtil/index.d.ts:121-128 | collapsing `"hello--World"` with `_` gives `"hello_World"` |
| StringCase.LowerRunExample | src/Shared/Modules/StringUtil/index.d.ts:121-128 | splitting and lower-casing `"hello_World"` gives `"hello_world"` |
| StringCase.SnakeRunExample | src/Shared/Modules/StringUtil/index.d.ts:121-128 | `ToSnakeCase("hello--World")` is `"hello_world"` |
| StringCase.SplitHumpExample | src/Shared/Modules/StringUtil/index.d.ts:121-137 | splitting `"helloWorld"` with `_` gives `"hello_World"` |
| StringCase.SnakeHumpExample | src/Shared/Modules/StringUtil/index.d.ts:121-128 | `ToSnakeCase("helloWorld")` is `"hello_world"` |
| StringCase.KebabHumpExample | src/Shared/Modules/StringUtil/index.d.ts:130-137 | `ToKebabCase("helloWorld")` is `"hello-world"` |

### Semantics beyond the declarations

The source files are TypeScript declarations for a Lua library. Where their
doc-comments and examples do not fix the behaviour, the model uses Lua's rules:

- Whitespace is Lua's `%s`: space, tab, newline, vertical tab, form feed and
  carriage return.
- Case conversion changes ASCII letters only.
- A byte is a number from 0 to 255, as for `string.char`.
- The pattern magic characters are `^$()%.[]*+-?`, from section 5.4.1 of the
  Lua 5.1 Reference Manual.

The case converters treat runs of `-` and `_` as word separators:

- camelCase and PascalCase remove each run and upper-case the character after
  it. A run at the very end is kept. They then fix the case of the first
  character.
- snake_case and kebab-case turn each run into one delimiter. They also put a
  delimiter between a character that is neither upper-case nor a separator and
  an upper-case letter that follows it. Then they lower-case everything.

The converters' contracts speak of a string's letters: its characters other
than `-` and `_`, in order. snake_case and kebab-case keep the letters exactly,
lower-cased; camelCase and PascalCase keep them up to case.

## Left out

- OnUpdate: a store-level subscription fed by the DataStore's own change notifications. Its method name exists in `DataMethod` but is never emitted.
- UpdateAsync: no operation of the modelled cache uses it. It is kept only as an event tag.
- The real DataStore calls, promise timing and the coalescing of simultaneous loads: each store call is one reply (`Up` or `Down`) passed in by the caller.
- The auto-save timer, the player-left save interval, `CanAutoSave`, `OnClose`, `DestroyOnLeave` and teardown: these are scheduling and lifecycle, not cache logic. `SaveAll` is the operation they would call.
- The `IsUsingMockService` and `SaveInStudio` flags, the `ordered` flag, the name/scope pair, and `ForPlayer`/`ForServer`: these choose which store is used, not how the cache behaves.
- Other writers to the same store: the store changes only through this instance's saves.
- Data values: Lua numbers are modelled as unbounded integers, not doubles. Tables are not modelled; `MarkDirty` stands for their in-place mutation.
- Data.MarkDirty: a key that was never loaded is left clean, so the next save skips it, although the doc-comment at `src/Server/Modules/Data/index.d.ts:107-108` says without condition that the key will be forced to save. Marking it would let that save overwrite (or, for undefined, remove) a store value that was never read.
- Signals: which store calls fire `Success`/`Failed` is not declared. The model logs one event for every store call, loads (`GetAsync`) included; the real module may fire the signals for fewer calls.
- Data.Delete: removes the key from the store only at the next successful save. Its doc-comment says it deletes from the cache and the store, and also that it is the same as `Set(key, undefined)`, which never writes the store. The model follows the second statement.
- Data.Save: its own doc-comment repeats `Set`'s. Its behaviour is taken from `src/Server/Modules/Data/index.d.ts:43-46` and `:106-113`.
- The upper-case variant of `ToSnakeCase`/`ToKebabCase`: the doc examples pass a second argument that the signatures do not declare. Only the one-argument form is modelled.
- `tostring(builder)`: it is the same as `builder.ToString()`, and Lua metamethods are not modelled.
- StringUtil.EqualsIgnoreCase: the declaration computes its answer at the type level; the model states the run-time answer only.
- StringUtil.ByteArrayToString: byte arrays hold integers only; a fractional number passed as a byte is not modelled.
- Unicode: strings are sequences of characters, case conversion is ASCII only, and there is no encoding or normalisation.
- The rest of the repository (the Aero framework, Signal, Maid, Thread, VectorUtil, NumberUtil, Date, Base64 and the test code) is not part of this model.

=== FILE: data.dfy ===
/**
 * The write-back persistence cache `Data`: a per-key cache in front of a remote
 * key/value store that may be unavailable on any call.
 *
 * The model is a pure state machine. A `State` holds the cache, the contents of
 * the store and the log of store calls; each store call appends exactly one
 * `Success` or `Failed` event, so "no store call was made" reads as "the log did
 * not grow". Whether the store answers a call is not decided by the model: every
 * operation that may call the store receives the store's `Reply` as a parameter.
 */
module Data {
  import opened Wrappers

  type Key = string

  /** The values a key can hold. Lua numbers are modelled as integers. */
  datatype Value = Number(n: int) | Text(s: string) | Flag(b: bool)

  /** The store calls that can be reported through `Success` and `Failed`. */
  datatype DataMethod = GetAsync | SetAsync | RemoveAsync | UpdateAsync | OnUpdate

  /** A notification on the `Success` or the `Failed` signal. */
  datatype Event =
    | Success(call: DataMethod, key: Key)
    | Failed(call: DataMethod, key: Key, errorText: string)

  /** The store's answer to one call: it either works or errors with a message. */
  datatype Reply = Up | Down(errorText: string)

  /** Why a promise returned by `Data` was rejected. */
  datatype Error = LoadFailure(text: string) | SaveFailure(text: string) | TypeMismatch

  /** Per-key cache entry: the cached value (`None` is undefined), whether the
      store has been read for the key, and whether a local change awaits a save. */
  datatype Entry = Entry(value: Option<Value>, loaded: bool, dirty: bool)

  /** The entry of a key the cache has never seen. */
  const Unloaded := Entry(None, false, false)

  datatype State = State(cache: map<Key, Entry>, store: map<Key, Value>, log: seq<Event>)

  /** What an operation leaves behind and what its promise settles to. */
  datatype Step<T> = Step(state: State, result: Result<T, Error>)

  function Lookup(s: State, k: Key): Entry {
    if k in s.cache then s.cache[k] else Unloaded
  }

  /** The value the store holds for `k`, `None` when it holds nothing. */
  function Stored(store: map<Key, Value>, k: Key): Option<Value> {
    if k in store then Some(store[k]) else None
  }

  /** The store after writing `v` to `k`; writing undefined removes the key. */
  function Write(store: map<Key, Value>, k: Key, v: Option<Value>): (r: map<Key, Value>)
    ensures Stored(r, k) == v
    ensures forall k' :: k' != k ==> Stored(r, k') == Stored(store, k')
  {
    match v
    case Some(x) => store[k := x]
    case None => store - {k}
  }

  /** The store call a save of `v` makes: a set for a value, a remove for undefined. */
  function SaveMethod(v: Option<Value>): DataMethod {
    if v.Some? then SetAsync else RemoveAsync
  }

  /** The event a save of entry `e` under key `k` reports for store reply `reply`. */
  function SaveEvent(e: Entry, k: Key, reply: Reply): Event {
    match reply
    case Up => Success(SaveMethod(e.value), k)
    case Down(t) => Failed(SaveMethod(e.value), k, t)
  }

  /** The keys holding a change not yet confirmed by the store. */
  function DirtyKeys(s: State): (r: set<Key>)
    ensures forall k :: k in r <==> Lookup(s, k).dirty
  {
    set k | k in s.cache && s.cache[k].dirty
  }

  /** The state invariant: nothing is dirty or holds a value without having been
      loaded (no blind writes), and every clean loaded entry agrees with the
      store, so a write is either persisted or still dirty. */
  ghost predicate Valid(s: State) {
    forall k :: k in s.cache ==>
      && ((s.cache[k].dirty || s.cache[k].value.Some?) ==> s.cache[k].loaded)
      && (s.cache[k].loaded && !s.cache[k].dirty ==> s.cache[k].value == Stored(s.store, k))
  }

  /** The event a store read reports: `Success`, or `Failed` with the error text. */
  function LoadEvent(k: Key, reply: Reply): (e: Event)
    ensures e.call == GetAsync && e.key == k
    ensures e.Success? <==> reply.Up?
    ensures reply.Down? ==> e == Failed(GetAsync, k, reply.errorText)
  {
    if reply.Up? then Success(GetAsync, k) else Failed(GetAsync, k, reply.errorText)
  }

  /** Reads `k` from the store into the cache. A failed read reports `Failed`
      and leaves the cache as it was, so the next call retries. */
  function Load(s: State, k: Key, reply: Reply): (r: Step<Option<Value>>)
    ensures r.state.store == s.store
    ensures |r.state.log| == |s.log| + 1 && r.state.log[..|s.log|] == s.log
    ensures r.state.log[|s.log|].call == GetAsync && r.state.log[|s.log|].key == k
    // a successful read reports `Success`, a failed one `Failed` with its error text
    ensures r.state.log == s.log + [LoadEvent(k, reply)]
    ensures reply.Up? ==> r.result == Ok(Stored(s.store, k))
    ensures reply.Up? ==> Lookup(r.state, k) == Entry(Stored(s.store, k), true, false)
    ensures reply.Down? ==> r.result == Err(LoadFailure(reply.errorText))
    ensures reply.Down? ==> r.state.cache == s.cache
    ensures forall k' :: k' != k ==> Lookup(r.state, k') == Lookup(s, k')
  {
    match reply
    case Up =>
      var v := Stored(s.store, k);
      Step(s.(cache := s.cache[k := Entry(v, true, false)], log := s.log + [Success(GetAsync, k)]), Ok(v))
    case Down(t) =>
      Step(s.(log := s.log + [Failed(GetAsync, k, t)]), Err(LoadFailure(t)))
  }

  /** Whether `Get` must call the store for `k`: only when the cache holds no
      value for it and no local change (a pending delete) is waiting. */
  predicate NeedsLoad(e: Entry) {
    e.value.None? && !e.dirty
  }

  /** `defaultValue` standing in for an undefined value. */
  function OrDefault(v: Option<Value>, default: Option<Value>): Option<Value> {
    if v.Some? then v else default
  }

  /** `Get(key, defaultValue)`: the cached value when there is one, otherwise the
      value read from the store, with `default` standing in for undefined. */
  function Get(s: State, k: Key, default: Option<Value>, reply: Reply): (r: Step<Option<Value>>)
    // a cached value, or a pending delete, is answered with no store call and no change
    ensures !NeedsLoad(Lookup(s, k)) ==> r == Step(s, Ok(OrDefault(Lookup(s, k).value, default)))
    // a read never writes the store and touches no other key
    ensures r.state.store == s.store
    ensures forall k' :: k' != k ==> Lookup(r.state, k') == Lookup(s, k')
    // otherwise exactly one store read is made
    ensures NeedsLoad(Lookup(s, k)) ==>
      && |r.state.log| == |s.log| + 1 && r.state.log[..|s.log|] == s.log
      && r.state.log[|s.log|].call == GetAsync && r.state.log[|s.log|].key == k
    ensures NeedsLoad(Lookup(s, k)) ==> r.state.log == s.log + [LoadEvent(k, reply)]
    // a successful read caches the store's value, clean, and answers the default for undefined
    ensures NeedsLoad(Lookup(s, k)) && reply.Up? ==>
      && r.result == Ok(OrDefault(Stored(s.store, k), default))
      && Lookup(r.state, k) == Entry(Stored(s.store, k), true, false)
    // it fails exactly when a needed read fails, and that changes nothing in the cache
    ensures r.result.Err? <==> NeedsLoad(Lookup(s, k)) && reply.Down?
    ensures r.result.Err? ==>
      && r.state.cache == s.cache
      && r.result.error == LoadFailure(reply.errorText)
  {
    var e := Lookup(s, k);
    if !NeedsLoad(e) then
      Step(s, Ok(OrDefault(e.value, default)))
    else
      var l := Load(s, k, reply);
      match l.result
      case Ok(v) => Step(l.state, Ok(OrDefault(v, default)))
      case Err(err) => Step(l.state, Err(err))
  }

  /** The state with `k` holding `v` as a loaded, dirty entry. */
  function Put(s: State, k: Key, v: Option<Value>): (r: State)
    ensures r.store == s.store && r.log == s.log
    ensures Lookup(r, k) == Entry(v, true, true)
    ensures forall k' :: k' != k ==> Lookup(r, k') == Lookup(s, k')
  {
    s.(cache := s.cache[k := Entry(v, true, true)])
  }

  /** `Set(key, value)`: writes the cache only. A key that was never loaded is
      read from the store first, and if that read fails the write is refused
      rather than applied blind. */
  function Set(s: State, k: Key, v: Option<Value>, reply: Reply): (r: Step<()>)
    // the store is never written by Set
    ensures r.state.store == s.store
    ensures forall k' :: k' != k ==> Lookup(r.state, k') == Lookup(s, k')
    // a loaded key is written with no store call
    ensures Lookup(s, k).loaded ==> r.state.log == s.log
    // a never-loaded key costs exactly one store read first
    ensures !Lookup(s, k).loaded ==>
      && |r.state.log| == |s.log| + 1 && r.state.log[..|s.log|] == s.log
      && r.state.log[|s.log|].call == GetAsync && r.state.log[|s.log|].key == k
    ensures !Lookup(s, k).loaded ==> r.state.log == s.log + [LoadEvent(k, reply)]
    ensures r.result.Ok? ==> Lookup(r.state, k) == Entry(v, true, true)
    // the only failure is a failed first read, and it leaves the cache untouched
    ensures r.result.Err? <==> !Lookup(s, k).loaded && reply.Down?
    ensures r.result.Err? ==> r.state.cache == s.cache && r.result.error == LoadFailure(reply.errorText)
  {
    if Lookup(s, k).loaded then
      Step(Put(s, k, v), Ok(()))
    else
      var l := Load(s, k, reply);
      match l.result
      case Ok(_) => Step(Put(l.state, k, v), Ok(()))
      case Err(err) => Step(l.state, Err(err))
  }

  /** `Delete(key)`: the same as setting `key` to undefined; the next successful
      save removes the key from the store. */
  function Delete(s: State, k: Key, reply: Reply): (r: Step<()>)
    // the documented equivalence, for every call
    ensures r == Set(s, k, None, reply)
    ensures r.state.store == s.store
    ensures forall k' :: k' != k ==> Lookup(r.state, k') == Lookup(s, k')
    ensures r.result.Ok? ==> Lookup(r.state, k) == Entry(None, true, true)
    ensures r.result.Err? <==> !Lookup(s, k).loaded && reply.Down?
    ensures r.result.Err? ==> r.state.cache == s.cache && r.result.error == LoadFailure(reply.errorText)
  {
    Set(s, k, None, reply)
  }

  /** `Increment(key, delta)`: reads the key as `Get` does, treats undefined as
      0, and caches and returns old + delta. A non-numeric delta or current
      value fails with `TypeMismatch`. */
  function Increment(s: State, k: Key, delta: Value, reply: Reply): (r: Step<int>)
    ensures r.state.store == s.store
    ensures forall k' :: k' != k ==> Lookup(r.state, k') == Lookup(s, k')
    // a non-numeric delta, or a non-numeric cached value, fails with no change at all
    ensures !delta.Number? ==> r == Step(s, Err(TypeMismatch))
    ensures Lookup(s, k).value.Some? && !Lookup(s, k).value.value.Number? ==> r == Step(s, Err(TypeMismatch))
    // a cached number, or a cached undefined pending a write, needs no store call
    ensures !NeedsLoad(Lookup(s, k)) ==> r.state.log == s.log
    ensures r.result.Ok? ==>
      && delta.Number?
      && var prior := if NeedsLoad(Lookup(s, k)) then Stored(s.store, k) else Lookup(s, k).value;
         && (prior.None? || prior.value.Number?)
         && r.result.value == (if prior.None? then 0 else prior.value.n) + delta.n
         && Lookup(r.state, k) == Entry(Some(Number(r.result.value)), true, true)
    ensures r.result.Err? && r.result.error.LoadFailure? ==> r.state.cache == s.cache
    // it fails exactly for a non-numeric delta, a failed read or a non-numeric value
    ensures var prior := if NeedsLoad(Lookup(s, k)) then Stored(s.store, k) else Lookup(s, k).value;
      r.result.Err? <==>
        || !delta.Number?
        || (NeedsLoad(Lookup(s, k)) && reply.Down?)
        || (prior.Some? && !prior.value.Number?)
    ensures delta.Number? && NeedsLoad(Lookup(s, k)) && reply.Down? ==>
      r.result == Err(LoadFailure(reply.errorText))
    // a value that is there but not a number, cached or read, fails with `TypeMismatch`
    ensures var prior := if NeedsLoad(Lookup(s, k)) then Stored(s.store, k) else Lookup(s, k).value;
      delta.Number? && !(NeedsLoad(Lookup(s, k)) && reply.Down?) && prior.Some? && !prior.value.Number? ==>
        r.result == Err(TypeMismatch)
    // a failure after the delta check leaves exactly what the read left
    ensures delta.Number? && r.result.Err? ==> r.state == Get(s, k, None, reply).state
  {
    if !delta.Number? then
      Step(s, Err(TypeMismatch))
    else
      var g := Get(s, k, None, reply);
      match g.result
      case Err(err) => Step(g.state, Err(err))
      case Ok(prior) =>
        if prior.Some? && !prior.value.Number? then
          Step(g.state, Err(TypeMismatch))
        else
          var n := (if prior.None? then 0 else prior.value.n) + delta.n;
          Step(Put(g.state, k, Some(Number(n))), Ok(n))
  }

  /** `Save(key)`: nothing to do for a clean key; otherwise sends the cached
      value to the store. Success clears the dirty flag and fires `Success`;
      failure keeps the key dirty, fires `Failed` and rejects. */
  function Save(s: State, k: Key, reply: Reply): (r: Step<()>)
    ensures !Lookup(s, k).dirty ==> r == Step(s, Ok(()))
    ensures Lookup(s, k).dirty ==> r.state.log == s.log + [SaveEvent(Lookup(s, k), k, reply)]
    // the cached value never changes, nor does any other key's entry or stored value
    ensures Lookup(r.state, k) == Lookup(s, k).(dirty := Lookup(s, k).dirty && reply.Down?)
    ensures forall k' :: k' != k ==> Lookup(r.state, k') == Lookup(s, k')
    ensures forall k' :: k' != k ==> Stored(r.state.store, k') == Stored(s.store, k')
    // a successful write puts the cached value in the store
    ensures Lookup(s, k).dirty && reply.Up? ==> Stored(r.state.store, k) == Lookup(s, k).value
    ensures reply.Down? ==> r.state.store == s.store
    ensures r.result.Err? <==> Lookup(s, k).dirty && reply.Down?
    ensures r.result.Err? ==> r.result.error == SaveFailure(reply.errorText)
  {
    var e := Lookup(s, k);
    if !e.dirty then
      Step(s, Ok(()))
    else
      match reply
      case Up =>
        Step(State(s.cache[k := e.(dirty := false)], Write(s.store, k, e.value), s.log + [SaveEvent(e, k, reply)]), Ok(()))
      case Down(t) =>
        Step(s.(log := s.log + [SaveEvent(e, k, reply)]), Err(SaveFailure(t)))
  }

  /** `MarkDirty(key)`: forces the next save of a loaded key without changing
      its value. A key never loaded has nothing to save and is left alone. */
  function MarkDirty(s: State, k: Key): (r: State)
    ensures r.store == s.store && r.log == s.log
    ensures forall k' :: Lookup(r, k').value == Lookup(s, k').value && Lookup(r, k').loaded == Lookup(s, k').loaded
    ensures forall k' :: k' != k ==> Lookup(r, k').dirty == Lookup(s, k').dirty
    ensures Lookup(r, k).dirty <==> Lookup(s, k).loaded || Lookup(s, k).dirty
  {
    if k in s.cache && s.cache[k].loaded then s.(cache := s.cache[k := s.cache[k].(dirty := true)]) else s
  }

  /** The entry a sweep leaves for a key: cleaned exactly when it was dirty and
      the store accepted its write. */
  function Swept(e: Entry, reply: Reply): Entry {
    e.(dirty := e.dirty && reply.Down?)
  }

  /** What a sweep leaves in the store for a key. */
  function SweptStored(s: State, k: Key, reply: Reply): Option<Value> {
    if Lookup(s, k).dirty && reply.Up? then Lookup(s, k).value else Stored(s.store, k)
  }

  /** After sweeping the keys `done`, `t` holds their swept entries and stored
      values and the original ones everywhere else. */
  ghost predicate SweptOn(s: State, t: State, done: set<Key>, replies: Key -> Reply) {
    forall k :: SweptAt(s, t, done, replies, k)
  }

  ghost predicate SweptAt(s: State, t: State, done: set<Key>, replies: Key -> Reply, k: Key) {
    && Lookup(t, k) == (if k in done then Swept(Lookup(s, k), replies(k)) else Lookup(s, k))
    && Stored(t.store, k) == (if k in done then SweptStored(s, k, replies(k)) else Stored(s.store, k))
  }

  /** The save events for the keys of `order`, in that order, as a sweep of
      `s` logs them. */
  function SaveEvents(s: State, order: seq<Key>, replies: Key -> Reply): (r: seq<Event>)
    ensures |r| == |order|
    ensures forall i :: 0 <= i < |order| ==>
      r[i] == SaveEvent(Lookup(s, order[i]), order[i], replies(order[i]))
  {
    seq(|order|, i requires 0 <= i < |order| => SaveEvent(Lookup(s, order[i]), order[i], replies(order[i])))
  }

  /** After sweeping the keys `done` in the order `order`, the log of `t`
      extends that of `s` by exactly one save event per key of `done`. */
  ghost predicate LoggedOn(s: State, t: State, done: set<Key>, order: seq<Key>, replies: Key -> Reply) {
    && t.log == s.log + SaveEvents(s, order, replies)
    && |order| == |done|
    && (forall k :: k in done <==> k in order)
  }

  lemma SweepStepEntries(s: State, t: State, done: set<Key>, k: Key, replies: Key -> Reply)
    requires SweptOn(s, t, done, replies)
    requires k !in done
    ensures SweptOn(s, Save(t, k, replies(k)).state, done + {k}, replies)
  {
    var t' := Save(t, k, replies(k)).state;
    forall k' ensures SweptAt(s, t', done + {k}, replies, k') {
      assert SweptAt(s, t, done, replies, k');
    }
  }

  lemma SweepStepLog(s: State, t: State, done: set<Key>, order: seq<Key>, k: Key, replies: Key -> Reply)
    requires LoggedOn(s, t, done, order, replies)
    requires k !in done && Lookup(s, k).dirty && SweptAt(s, t, done, replies, k)
    ensures LoggedOn(s, Save(t, k, replies(k)).state, done + {k}, order + [k], replies)
  {
    var ev := SaveEvent(Lookup(s, k), k, replies(k));
    var evs := SaveEvents(s, order, replies);
    assert Save(t, k, replies(k)).state.log == t.log + [ev];
    assert SaveEvents(s, order + [k], replies) == evs + [ev];
    assert s.log + evs + [ev] == s.log + (evs + [ev]);
    assert |done + {k}| == |done| + 1;
  }

  /** Saving one more dirty key extends both halves of the sweep invariant. */
  lemma SweepStep(s: State, t: State, done: set<Key>, order: seq<Key>, k: Key, replies: Key -> Reply)
    requires SweptOn(s, t, done, replies) && LoggedOn(s, t, done, order, replies)
    requires k !in done && Lookup(s, k).dirty
    ensures var t' := Save(t, k, replies(k)).state;
      SweptOn(s, t', done + {k}, replies) && LoggedOn(s, t', done + {k}, order + [k], replies)
  {
    assert SweptAt(s, t, done, replies, k);
    SweepStepEntries(s, t, done, k, replies);
    SweepStepLog(s, t, done, order, k, replies);
  }

  lemma SweepComplete(s: State, t: State, order: seq<Key>, replies: Key -> Reply)
    requires SweptOn(s, t, DirtyKeys(s), replies) && LoggedOn(s, t, DirtyKeys(s), order, replies)
    ensures forall k :: Lookup(t, k) == Swept(Lookup(s, k), replies(k))
    ensures forall k :: Stored(t.store, k) == SweptStored(s, k, replies(k))
    ensures |t.log| == |s.log| + |DirtyKeys(s)| && t.log[..|s.log|] == s.log
    ensures forall k :: k in DirtyKeys(s) ==> SaveEvent(Lookup(s, k), k, replies(k)) in t.log[|s.log|..]
    ensures forall e :: e in t.log[|s.log|..] ==>
      e.key in DirtyKeys(s) && e == SaveEvent(Lookup(s, e.key), e.key, replies(e.key))
  {
    forall k ensures Lookup(t, k) == Swept(Lookup(s, k), replies(k)) && Stored(t.store, k) == SweptStored(s, k, replies(k)) {
      assert SweptAt(s, t, DirtyKeys(s), replies, k);
      if k !in DirtyKeys(s) {
        assert Swept(Lookup(s, k), replies(k)) == Lookup(s, k);
      }
    }
    var evs := SaveEvents(s, order, replies);
    assert t.log[..|s.log|] == s.log && t.log[|s.log|..] == evs;
    forall k | k in DirtyKeys(s)
      ensures SaveEvent(Lookup(s, k), k, replies(k)) in evs
    {
      var i :| 0 <= i < |order| && order[i] == k;
      assert evs[i] == SaveEvent(Lookup(s, k), k, replies(k));
    }
    forall e | e in evs
      ensures e.key in DirtyKeys(s) && e == SaveEvent(Lookup(s, e.key), e.key, replies(e.key))
    {
      var i :| 0 <= i < |evs| && evs[i] == e;
      assert order[i] in order;
    }
  }

  /** Saves every key dirty in `s`, one after the other, in any order. */
  method SaveDirtyKeys(s: State, replies: Key -> Reply) returns (t: State, ghost order: seq<Key>)
    ensures SweptOn(s, t, DirtyKeys(s), replies) && LoggedOn(s, t, DirtyKeys(s), order, replies)
  {
    var todo := DirtyKeys(s);
    var done: set<Key> := {};
    t := s;
    order := [];
    while todo != {}
      invariant todo !! done && todo + done == DirtyKeys(s)
      invariant SweptOn(s, t, done, replies) && LoggedOn(s, t, done, order, replies)
      decreases todo
    {
      var k :| k in todo;
      SweepStep(s, t, done, order, k, replies);
      t := Save(t, k, replies(k)).state;
      order := order + [k];
      todo := todo - {k};
      done := done + {k};
    }
  }

  /** `SaveAll()`: saves every key dirty at the start, independently; one key's
      failure does not stop the others. Returns the keys whose save failed. */
  method SaveAll(s: State, replies: Key -> Reply) returns (s': State, failed: set<Key>)
    ensures forall k :: Lookup(s', k) == Swept(Lookup(s, k), replies(k))
    ensures forall k :: Stored(s'.store, k) == SweptStored(s, k, replies(k))
    ensures forall k :: k in failed <==> Lookup(s, k).dirty && replies(k).Down?
    // exactly one Success or Failed event per key dirty at the start
    ensures |s'.log| == |s.log| + |DirtyKeys(s)| && s'.log[..|s.log|] == s.log
    ensures forall k :: k in DirtyKeys(s) ==> SaveEvent(Lookup(s, k), k, replies(k)) in s'.log[|s.log|..]
    ensures forall e :: e in s'.log[|s.log|..] ==>
      e.key in DirtyKeys(s) && e == SaveEvent(Lookup(s, e.key), e.key, replies(e.key))
  {
    ghost var order;
    s', order := SaveDirtyKeys(s, replies);
    SweepComplete(s, s', order, replies);
    failed := set k | k in DirtyKeys(s) && replies(k).Down?;
  }
}

=== FILE: data_properties.dfy ===
/**
 * Properties of the `Data` cache that relate several operations: the state
 * invariant is kept by every operation, a write is never lost (it stays cached
 * and is either in the store or still dirty), only a successful save cleans a
 * key, and a few concrete scenarios on the key "coins".
 */
module DataProperties {
  import opened Wrappers
  import opened Data

  /** One call a caller can make on a `Data` instance, with the store's reply
      to the store call it may make. */
  datatype Op =
    | GetOp(key: Key, default: Option<Value>, reply: Reply)
    | SetOp(key: Key, value: Option<Value>, reply: Reply)
    | DeleteOp(key: Key, reply: Reply)
    | IncrementOp(key: Key, delta: Value, reply: Reply)
    | SaveOp(key: Key, reply: Reply)
    | MarkDirtyOp(key: Key)

  function Apply(s: State, op: Op): State {
    match op
    case GetOp(k, d, rep) => Get(s, k, d, rep).state
    case SetOp(k, v, rep) => Set(s, k, v, rep).state
    case DeleteOp(k, rep) => Delete(s, k, rep).state
    case IncrementOp(k, d, rep) => Increment(s, k, d, rep).state
    case SaveOp(k, rep) => Save(s, k, rep).state
    case MarkDirtyOp(k) => MarkDirty(s, k)
  }

  function Run(s: State, ops: seq<Op>): State
    decreases |ops|
  {
    if |ops| == 0 then s else Run(Apply(s, ops[0]), ops[1..])
  }

  /** Whether `op` changes the cached value of `k`. */
  predicate Writes(op: Op, k: Key) {
    (op.SetOp? || op.DeleteOp? || op.IncrementOp?) && op.key == k
  }

  lemma EmptyIsValid(store: map<Key, Value>)
    ensures Valid(State(map[], store, []))
  {
  }

  /** A key's entry is well formed and agrees with the store if clean. */
  ghost predicate ValidAt(s: State, k: Key) {
    var e := Lookup(s, k);
    && ((e.dirty || e.value.Some?) ==> e.loaded)
    && (e.loaded && !e.dirty ==> e.value == Stored(s.store, k))
  }

  lemma ValidAtAll(s: State)
    ensures Valid(s) <==> forall k :: ValidAt(s, k)
  {
    if forall k :: ValidAt(s, k) {
      forall k | k in s.cache ensures ValidAt(s, k) {}
    }
  }

  /** Every operation keeps the invariant. */
  lemma {:induction false} ApplyPreservesValid(s: State, op: Op)
    requires Valid(s)
    ensures Valid(Apply(s, op))
  {
    var t := Apply(s, op);
    ValidAtAll(s);
    forall k ensures ValidAt(t, k) {
      assert ValidAt(s, k);
      if k != op.key {
        if !op.SaveOp? {
          assert Lookup(t, k) == Lookup(s, k) && t.store == s.store;
        } else {
          assert Lookup(t, k) == Lookup(s, k) && Stored(t.store, k) == Stored(s.store, k);
        }
      }
    }
    ValidAtAll(t);
  }

  lemma {:induction false} RunPreservesValid(s: State, ops: seq<Op>)
    requires Valid(s)
    ensures Valid(Run(s, ops))
    decreases |ops|
  {
    if |ops| > 0 {
      ApplyPreservesValid(s, ops[0]);
      RunPreservesValid(Apply(s, ops[0]), ops[1..]);
    }
  }

  /** `SaveAll` keeps the invariant: whatever a sweep leaves behind is valid. */
  lemma SweepPreservesValid(s: State, t: State, replies: Key -> Reply)
    requires Valid(s)
    requires forall k :: Lookup(t, k) == Swept(Lookup(s, k), replies(k))
    requires forall k :: Stored(t.store, k) == SweptStored(s, k, replies(k))
    ensures Valid(t)
  {
    ValidAtAll(s);
    forall k ensures ValidAt(t, k) {
      assert ValidAt(s, k);
    }
    ValidAtAll(t);
  }

  /** Only a successful save of `k` cleans a dirty `k`. */
  lemma DirtyClearedOnlyBySave(s: State, op: Op, k: Key)
    requires Lookup(s, k).dirty && !Lookup(Apply(s, op), k).dirty
    ensures op.SaveOp? && op.key == k && op.reply.Up?
  {
  }

  /** On a valid state, `Get` answers what the store holds (or the default)
      for every key without a pending local change, whether or not the value
      was already cached: always when the store is up, and whenever it answers
      at all when the store is down. */
  lemma GetReturnsStoredOrDefault(s: State, k: Key, default: Option<Value>, reply: Reply)
    requires Valid(s) && !Lookup(s, k).dirty
    ensures Get(s, k, default, Up).result == Ok(OrDefault(Stored(s.store, k), default))
    ensures Get(s, k, default, reply).result.Ok? ==>
      Get(s, k, default, reply).result == Ok(OrDefault(Stored(s.store, k), default))
  {
    ValidAtAll(s);
    assert ValidAt(s, k);
  }

  /** Read-your-writes: after a successful `Set`, `Get` returns the written
      value (or the default for undefined) with no store call. */
  lemma SetThenGet(s: State, k: Key, v: Option<Value>, default: Option<Value>, r1: Reply, r2: Reply)
    requires Set(s, k, v, r1).result.Ok?
    ensures var t := Set(s, k, v, r1).state;
      Get(t, k, default, r2) == Step(t, Ok(OrDefault(v, default)))
  {
  }

  /** A `Get` that found a value caches it: the next `Get` makes no store call. */
  lemma GetThenGetIsCached(s: State, k: Key, d1: Option<Value>, d2: Option<Value>, r1: Reply, r2: Reply)
    requires Get(s, k, d1, r1).result.Ok? && Lookup(Get(s, k, d1, r1).state, k).value.Some?
    ensures var t := Get(s, k, d1, r1).state;
      Get(t, k, d2, r2) == Step(t, Ok(Lookup(t, k).value))
  {
  }

  /** `Delete(key)` is `Set(key, undefined)`, and a successful save after it
      removes the key from the store. */
  lemma DeleteThenSaveRemoves(s: State, k: Key, r1: Reply)
    requires Delete(s, k, r1).result.Ok?
    ensures Delete(s, k, r1) == Set(s, k, None, r1)
    ensures var t := Save(Delete(s, k, r1).state, k, Up).state;
      && k !in t.store
      && t.log[|t.log| - 1] == Success(RemoveAsync, k)
  {
  }

  /** A successful `Increment` is a read as `Get` does it followed by a write
      of old + delta, which `Set` performs with no further store call. */
  lemma IncrementIsGetThenSet(s: State, k: Key, delta: Value, r1: Reply, r2: Reply)
    requires Valid(s) && Increment(s, k, delta, r1).result.Ok?
    ensures var n := Increment(s, k, delta, r1).result.value;
      && var g := Get(s, k, None, r1);
         && g.result.Ok?
         && n == (if g.result.value.None? then 0 else g.result.value.value.n) + delta.n
         && Set(g.state, k, Some(Number(n)), r2) == Step(Increment(s, k, delta, r1).state, Ok(()))
  {
    ValidAtAll(s);
    assert ValidAt(s, k);
  }

  /** A successful save leaves the key clean: saving again makes no store call. */
  lemma SaveThenSaveIsNoOp(s: State, k: Key, r2: Reply)
    ensures var t := Save(s, k, Up).state;
      Save(t, k, r2) == Step(t, Ok(()))
  {
  }

  /** `MarkDirty` on a loaded key guarantees the next save writes its cached
      value, even when the value did not change. */
  lemma MarkDirtyThenSaveWrites(s: State, k: Key)
    requires Lookup(s, k).loaded
    ensures var t := Save(MarkDirty(s, k), k, Up).state;
      && Stored(t.store, k) == Lookup(s, k).value
      && t.log == s.log + [Success(SaveMethod(Lookup(s, k).value), k)]
      && !Lookup(t, k).dirty
  {
  }

  /** A write is never lost: once `k` holds `v` in a valid state, no sequence
      of calls that does not itself write `k` changes the cached value, and the
      value is always either in the store or still dirty. */
  lemma {:induction false} WriteIsPersistedOrDirty(s: State, ops: seq<Op>, k: Key)
    requires Valid(s) && Lookup(s, k).loaded
    requires forall i :: 0 <= i < |ops| ==> !Writes(ops[i], k)
    ensures var t := Run(s, ops);
      && Lookup(t, k).loaded && Lookup(t, k).value == Lookup(s, k).value
      && (Lookup(t, k).dirty || Stored(t.store, k) == Lookup(s, k).value)
    decreases |ops|
  {
    if |ops| == 0 {
      ValidAtAll(s);
      assert ValidAt(s, k);
    } else {
      var s1 := Apply(s, ops[0]);
      ApplyPreservesValid(s, ops[0]);
      ValidAtAll(s);
      assert ValidAt(s, k);
      assert Lookup(s1, k).loaded && Lookup(s1, k).value == Lookup(s, k).value;
      WriteIsPersistedOrDirty(s1, ops[1..], k);
    }
  }

  // Concrete scenarios on the key "coins", chosen to exercise each path.

  /** Against an empty, working store: `Get("coins", 0)` answers 0 and leaves
      a clean loaded entry; `Set("coins", 50)` dirties it with no store call;
      `Save("coins")` writes 50 and reports `Success(SetAsync, "coins")`. */
  lemma CoinsScenario()
    ensures var s0 := State(map[], map[], []);
      var g := Get(s0, "coins", Some(Number(0)), Up);
      var w := Set(g.state, "coins", Some(Number(50)), Up);
      var v := Save(w.state, "coins", Up);
      && g.result == Ok(Some(Number(0)))
      && Lookup(g.state, "coins") == Entry(None, true, false)
      && w.result.Ok? && Lookup(w.state, "coins") == Entry(Some(Number(50)), true, true)
      && w.state.log == g.state.log
      && v.state.store == map["coins" := Number(50)]
      && !Lookup(v.state, "coins").dirty
      && v.state.log == [Success(GetAsync, "coins"), Success(SetAsync, "coins")]
  {
  }

  /** With the store down, a first `Set("coins", 50)` is refused: the key stays
      unloaded and clean, so the write never took effect. */
  lemma OfflineSetScenario(store: map<Key, Value>)
    ensures var w := Set(State(map[], store, []), "coins", Some(Number(50)), Down("offline"));
      && w.result == Err(LoadFailure("offline"))
      && Lookup(w.state, "coins") == Unloaded
      && w.state.log == [Failed(GetAsync, "coins", "offline")]
  {
  }

  /** `Increment("coins", 5)` on a cached 10 gives 15 and dirties the key; on a
      cached text value it fails and changes nothing; on a text value still in
      the store it fails after the read, which stays cached. */
  lemma IncrementScenario(store: map<Key, Value>)
    ensures var s := State(map["coins" := Entry(Some(Number(10)), true, false)], store, []);
      var r := Increment(s, "coins", Number(5), Down("unused"));
      && r.result == Ok(15) && Lookup(r.state, "coins") == Entry(Some(Number(15)), true, true)
    ensures var s := State(map["coins" := Entry(Some(Text("ten")), true, false)], store, []);
      Increment(s, "coins", Number(5), Up) == Step(s, Err(TypeMismatch))
    ensures var s := State(map[], map["coins" := Text("ten")], []);
      var r := Increment(s, "coins", Number(5), Up);
      && r.result == Err(TypeMismatch)
      && Lookup(r.state, "coins") == Entry(Some(Text("ten")), true, false)
      && r.state.log == [Success(GetAsync, "coins")]
  {
  }
}

=== FILE: string_case.dfy ===
/**
 * The case converters of `StringUtil`. Words are separated by runs of `-` and
 * `_`, and a lower-case (or other non-separator) character followed by an
 * upper-case letter starts a new word:
 * - camelCase and PascalCase drop every separator run that is followed by a
 *   character and upper-case that character, then fix the case of the first
 *   character;
 * - snake_case and kebab-case turn every separator run into one `_` or `-`,
 *   put one between a non-upper-case character and a following upper-case
 *   letter, and lower-case the result.
 */
module StringCase {
  import opened StringUtil

  predicate IsSeparator(c: char) {
    c == '-' || c == '_'
  }

  /** A word: a string holding no separator. */
  predicate IsWord(w: string) {
    forall i :: 0 <= i < |w| ==> !IsSeparator(w[i])
  }

  /** No separator is directly followed by another character: separators
      survive only as a run at the very end. */
  predicate SeparatorsOnlyTrailing(s: string) {
    forall i :: 0 <= i < |s| - 1 && IsSeparator(s[i]) ==> IsSeparator(s[i + 1])
  }

  /** No two separators in a row. */
  predicate NoDoubleSeparators(s: string) {
    forall i :: 0 <= i < |s| - 1 ==> !(IsSeparator(s[i]) && IsSeparator(s[i + 1]))
  }

  /** Every separator in `s` is `d`. */
  predicate OnlySeparator(s: string, d: char) {
    forall i :: 0 <= i < |s| && IsSeparator(s[i]) ==> s[i] == d
  }

  /** A character that ends a word when an upper-case letter follows it. */
  predicate EndsWord(c: char) {
    !IsUpper(c) && !IsSeparator(c)
  }

  /** No word-ending character is directly followed by an upper-case letter. */
  predicate NoHumps(s: string) {
    forall i :: 0 <= i < |s| - 1 ==> !(EndsWord(s[i]) && IsUpper(s[i + 1]))
  }

  lemma CaseKeepsSeparators(c: char)
    ensures IsSeparator(ToUpperChar(c)) <==> IsSeparator(c)
    ensures IsSeparator(ToLowerChar(c)) <==> IsSeparator(c)
  {
  }

  lemma SplitHead(w: string, t: string)
    requires |w| > 0
    ensures w + t == [w[0]] + (w[1..] + t)
  {
  }

  /** The index of the first character at or after `i` that is not a
      separator, or `|s|` if there is none. */
  function SeparatorsEnd(s: string, i: nat): (r: nat)
    requires i <= |s|
    ensures i <= r <= |s|
    ensures forall j :: i <= j < r ==> IsSeparator(s[j])
    ensures r < |s| ==> !IsSeparator(s[r])
    decreases |s| - i
  {
    if i < |s| && IsSeparator(s[i]) then SeparatorsEnd(s, i + 1) else i
  }

  /** The string after its leading separators. */
  function DropSeparators(s: string): (r: string)
    ensures |r| <= |s| && r == s[|s| - |r|..]
    ensures forall i :: 0 <= i < |s| - |r| ==> IsSeparator(s[i])
    ensures |r| > 0 ==> !IsSeparator(r[0])
  {
    s[SeparatorsEnd(s, 0)..]
  }

  /** A non-empty run of separators. */
  predicate IsSeparatorRun(x: string) {
    |x| > 0 && forall i :: 0 <= i < |x| ==> IsSeparator(x[i])
  }

  /** `SeparatorsEnd` is the only index with its two properties. */
  lemma SeparatorsEndUnique(s: string, i: nat, k: nat)
    requires i <= k <= |s|
    requires forall j :: i <= j < k ==> IsSeparator(s[j])
    requires k < |s| ==> !IsSeparator(s[k])
    ensures SeparatorsEnd(s, i) == k
  {
  }

  /** A separator run in front of a string that does not start with a
      separator is exactly what `DropSeparators` drops. */
  lemma DropRun(x: string, t: string)
    requires IsSeparatorRun(x) && (|t| > 0 ==> !IsSeparator(t[0]))
    ensures DropSeparators(x + t) == t
  {
    var u := x + t;
    assert forall j :: 0 <= j < |x| ==> IsSeparator(u[j]) by {
      assert forall j :: 0 <= j < |x| ==> u[j] == x[j];
    }
    assert |t| > 0 ==> u[|x|] == t[0];
    SeparatorsEndUnique(u, 0, |x|);
    assert u[|x|..] == t;
  }

  // The letters of a string: what the converters keep, up to case.

  /** The characters of `s` that are not separators, in order. */
  function Letters(s: string): (r: string)
    ensures |r| <= |s| && IsWord(r)
  {
    if |s| == 0 then ""
    else if IsSeparator(s[0]) then Letters(s[1..])
    else [s[0]] + Letters(s[1..])
  }

  lemma LettersCons(c: char, t: string)
    ensures Letters([c] + t) == (if IsSeparator(c) then "" else [c]) + Letters(t)
  {
    assert ([c] + t)[1..] == t;
  }

  lemma {:induction false} LettersAppend(a: string, b: string)
    ensures Letters(a + b) == Letters(a) + Letters(b)
    decreases |a|
  {
    if |a| > 0 {
      LettersAppend(a[1..], b);
      SplitHead(a, b);
      LettersCons(a[0], a[1..] + b);
    } else {
      assert a + b == b;
    }
  }

  /** A string of separators has no letters. */
  lemma {:induction false} LettersOfSeparators(x: string)
    requires forall i :: 0 <= i < |x| ==> IsSeparator(x[i])
    ensures Letters(x) == ""
    decreases |x|
  {
    if |x| > 0 {
      LettersOfSeparators(x[1..]);
    }
  }

  lemma LettersDropSeparators(s: string)
    ensures Letters(DropSeparators(s)) == Letters(s)
  {
    var r := DropSeparators(s);
    var k := |s| - |r|;
    assert s == s[..k] + r;
    LettersOfSeparators(s[..k]);
    LettersAppend(s[..k], r);
  }

  lemma LowerCons(c: char, t: string)
    ensures Lower([c] + t) == [ToLowerChar(c)] + Lower(t)
  {
    assert ([c] + t)[1..] == t;
  }

  /** Lower-casing keeps the separators, so it commutes with `Letters`. */
  lemma {:induction false} LettersOfLower(s: string)
    ensures Letters(Lower(s)) == Lower(Letters(s))
    decreases |s|
  {
    if |s| > 0 {
      LettersOfLower(s[1..]);
      CaseKeepsSeparators(s[0]);
      LettersCons(ToLowerChar(s[0]), Lower(s[1..]));
      if !IsSeparator(s[0]) {
        LowerCons(s[0], Letters(s[1..]));
      }
    }
  }

  lemma LowerOfUpperChar(c: char)
    ensures ToLowerChar(ToUpperChar(c)) == ToLowerChar(c)
  {
  }

  /** Replacing the first character by one of the same kind and the same
      lower case keeps the letters up to case. */
  lemma FirstCaseKeepsLetters(j: string, c: char)
    requires |j| > 0 && ToLowerChar(c) == ToLowerChar(j[0])
    requires IsSeparator(c) <==> IsSeparator(j[0])
    ensures Lower(Letters([c] + j[1..])) == Lower(Letters(j))
  {
    assert j == [j[0]] + j[1..];
    LettersCons(c, j[1..]);
    LettersCons(j[0], j[1..]);
    if !IsSeparator(c) {
      LowerCons(c, Letters(j[1..]));
      LowerCons(j[0], Letters(j[1..]));
    }
  }

  // camelCase and PascalCase

  /** Every separator run followed by a character is replaced by that character
      in upper case; a run at the end of the string is kept. */
  function JoinWords(s: string): (r: string)
    ensures |r| <= |s|
    ensures |s| > 0 && !IsSeparator(s[0]) ==> |r| > 0 && r[0] == s[0]
    decreases |s|
  {
    if |s| == 0 then ""
    else if !IsSeparator(s[0]) then [s[0]] + JoinWords(s[1..])
    else
      var rest := DropSeparators(s);
      if |rest| == 0 then s else [ToUpperChar(rest[0])] + JoinWords(rest[1..])
  }

  /** After `JoinWords` no separator is followed by anything but separators. */
  lemma {:induction false} JoinWordsShape(s: string)
    ensures SeparatorsOnlyTrailing(JoinWords(s))
    decreases |s|
  {
    if |s| > 0 {
      if !IsSeparator(s[0]) {
        JoinWordsShape(s[1..]);
      } else {
        var rest := DropSeparators(s);
        if |rest| > 0 {
          JoinWordsShape(rest[1..]);
          CaseKeepsSeparators(rest[0]);
        }
      }
    }
  }

  /** `JoinWords` keeps every letter, in order, up to case. */
  lemma {:induction false} JoinWordsKeepsLetters(s: string)
    ensures Lower(Letters(JoinWords(s))) == Lower(Letters(s))
    decreases |s|
  {
    if |s| > 0 {
      if !IsSeparator(s[0]) {
        JoinWordsKeepsLetters(s[1..]);
        LettersCons(s[0], JoinWords(s[1..]));
        LowerCons(s[0], Letters(JoinWords(s[1..])));
        LowerCons(s[0], Letters(s[1..]));
      } else {
        var rest := DropSeparators(s);
        LettersDropSeparators(s);
        if |rest| > 0 {
          JoinWordsKeepsLetters(rest[1..]);
          CaseKeepsSeparators(rest[0]);
          LowerOfUpperChar(rest[0]);
          FirstCaseKeepsLetters([ToUpperChar(rest[0])] + JoinWords(rest[1..]), rest[0]);
          assert ([ToUpperChar(rest[0])] + JoinWords(rest[1..]))[1..] == JoinWords(rest[1..]);
          LettersCons(rest[0], JoinWords(rest[1..]));
          LowerCons(rest[0], Letters(JoinWords(rest[1..])));
          LettersCons(rest[0], rest[1..]);
          LowerCons(rest[0], Letters(rest[1..]));
          assert rest == [rest[0]] + rest[1..];
        }
      }
    }
  }

  /** A separator run followed by a character leaves just that character, in
      upper case. */
  lemma JoinWordsAfterRun(x: string, t: string)
    requires IsSeparatorRun(x) && |t| > 0 && !IsSeparator(t[0])
    ensures JoinWords(x + t) == [ToUpperChar(t[0])] + JoinWords(t[1..])
  {
    DropRun(x, t);
    assert (x + t)[0] == x[0];
  }

  /** A character other than a separator is copied by `JoinWords`. */
  lemma JoinWordsCons(c: char, t: string)
    requires !IsSeparator(c)
    ensures JoinWords([c] + t) == [c] + JoinWords(t)
  {
    assert ([c] + t)[1..] == t;
  }

  /** A word is copied unchanged by `JoinWords`. */
  lemma {:induction false} JoinWordsKeepsWord(w: string, t: string)
    requires IsWord(w)
    ensures JoinWords(w + t) == w + JoinWords(t)
    decreases |w|
  {
    if |w| > 0 {
      assert IsWord(w[1..]) && !IsSeparator(w[0]);
      JoinWordsKeepsWord(w[1..], t);
      SplitHead(w, t);
      JoinWordsCons(w[0], w[1..] + t);
      SplitHead(w, JoinWords(t));
    } else {
      assert w + t == t;
    }
  }

  /** A separator run followed by a word leaves the word, capitalised. */
  lemma JoinWordsCapitalises(x: string, w: string, t: string)
    requires IsSeparatorRun(x) && IsWord(w) && |w| > 0
    ensures JoinWords(x + (w + t)) == UpperFirst(w) + JoinWords(t)
  {
    var u := w + t;
    assert u[0] == w[0] && u[1..] == w[1..] + t;
    var j := JoinWords(w[1..] + t);
    assert JoinWords(x + u) == [ToUpperChar(w[0])] + j by {
      JoinWordsAfterRun(x, u);
    }
    assert j == w[1..] + JoinWords(t) by {
      assert IsWord(w[1..]);
      JoinWordsKeepsWord(w[1..], t);
    }
    UpperFirstAppend(w, JoinWords(t));
  }

  lemma UpperFirstAppend(w: string, t: string)
    requires |w| > 0
    ensures [ToUpperChar(w[0])] + (w[1..] + t) == UpperFirst(w) + t
  {
  }

  /** A separator run followed by a last word leaves that word, capitalised. */
  lemma JoinWordsLastWord(x: string, w: string)
    requires IsSeparatorRun(x) && IsWord(w) && |w| > 0
    ensures JoinWords(x + w) == UpperFirst(w)
  {
    assert w + [] == w;
    JoinWordsCapitalises(x, w, []);
    assert UpperFirst(w) + [] == UpperFirst(w);
  }

  /** Once a separator appears in such a string, only separators follow. */
  lemma {:induction false} SeparatorRunToEnd(s: string, i: int)
    requires SeparatorsOnlyTrailing(s) && 0 <= i < |s| && IsSeparator(s[0])
    ensures IsSeparator(s[i])
    decreases i
  {
    if i > 0 {
      SeparatorRunToEnd(s, i - 1);
    }
  }

  /** `JoinWords` leaves alone a string whose only separators trail it. */
  lemma {:induction false} JoinWordsFixed(s: string)
    requires SeparatorsOnlyTrailing(s)
    ensures JoinWords(s) == s
    decreases |s|
  {
    if |s| > 0 {
      if IsSeparator(s[0]) {
        var r := DropSeparators(s);
        if |r| > 0 {
          SeparatorRunToEnd(s, |s| - |r|);
        }
      } else {
        JoinWordsFixed(s[1..]);
      }
    }
  }

  function LowerFirst(s: string): (r: string)
    ensures |r| == |s| && (|s| > 0 ==> r[0] == ToLowerChar(s[0]) && r[1..] == s[1..])
  {
    if |s| == 0 then s else [ToLowerChar(s[0])] + s[1..]
  }

  function UpperFirst(s: string): (r: string)
    ensures |r| == |s| && (|s| > 0 ==> r[0] == ToUpperChar(s[0]) && r[1..] == s[1..])
  {
    if |s| == 0 then s else [ToUpperChar(s[0])] + s[1..]
  }

  /** Changing the case of the first character keeps the shape and the letters. */
  lemma FirstCaseKeeps(j: string)
    ensures SeparatorsOnlyTrailing(j) ==> SeparatorsOnlyTrailing(LowerFirst(j))
    ensures SeparatorsOnlyTrailing(j) ==> SeparatorsOnlyTrailing(UpperFirst(j))
    ensures Lower(Letters(LowerFirst(j))) == Lower(Letters(j))
    ensures Lower(Letters(UpperFirst(j))) == Lower(Letters(j))
  {
    if |j| > 0 {
      CaseKeepsSeparators(j[0]);
      LowerOfUpperChar(j[0]);
      FirstCaseKeepsLetters(j, ToLowerChar(j[0]));
      FirstCaseKeepsLetters(j, ToUpperChar(j[0]));
      assert LowerFirst(j) == [ToLowerChar(j[0])] + j[1..];
      assert UpperFirst(j) == [ToUpperChar(j[0])] + j[1..];
    }
  }

  /** `ToCamelCase`: words joined, each after the first capitalised at its
      first character, and the result starting in lower case. It keeps the
      letters of `s` in order, up to case, and separators only as a trailing
      run. */
  function ToCamelCase(s: string): (r: string)
    ensures |r| <= |s| && (|r| > 0 ==> !IsUpper(r[0]))
    ensures SeparatorsOnlyTrailing(r)
    ensures Lower(Letters(r)) == Lower(Letters(s))
  {
    JoinWordsShape(s);
    JoinWordsKeepsLetters(s);
    FirstCaseKeeps(JoinWords(s));
    LowerFirst(JoinWords(s))
  }

  /** `ToPascalCase`: as `ToCamelCase`, but starting in upper case. */
  function ToPascalCase(s: string): (r: string)
    ensures |r| <= |s| && (|r| > 0 ==> !IsLower(r[0]))
    ensures SeparatorsOnlyTrailing(r)
    ensures Lower(Letters(r)) == Lower(Letters(s))
  {
    JoinWordsShape(s);
    JoinWordsKeepsLetters(s);
    FirstCaseKeeps(JoinWords(s));
    UpperFirst(JoinWords(s))
  }

  /** camelCase and PascalCase of the same string differ only in the case of
      their first character. */
  lemma CamelPascalAgree(s: string)
    ensures |ToCamelCase(s)| == |ToPascalCase(s)|
    ensures |ToCamelCase(s)| > 0 ==>
      && ToCamelCase(s)[1..] == ToPascalCase(s)[1..]
      && ToCamelCase(s)[0] == ToLowerChar(ToPascalCase(s)[0])
      && ToPascalCase(s)[0] == ToUpperChar(ToCamelCase(s)[0])
  {
  }

  /** `ToCamelCase` is idempotent: a camelCase string is already camelCase. */
  lemma CamelIdempotent(s: string)
    ensures ToCamelCase(ToCamelCase(s)) == ToCamelCase(s)
  {
    JoinWordsFixed(ToCamelCase(s));
  }

  /** `ToPascalCase` is idempotent. */
  lemma PascalIdempotent(s: string)
    ensures ToPascalCase(ToPascalCase(s)) == ToPascalCase(s)
  {
    JoinWordsFixed(ToPascalCase(s));
  }

  // snake_case and kebab-case

  /** Every run of separators becomes the single separator `d`. */
  function CollapseSeparators(s: string, d: char): (r: string)
    requires IsSeparator(d)
    ensures |r| > 0 <==> |s| > 0
    ensures |s| > 0 ==> r[0] == if IsSeparator(s[0]) then d else s[0]
    decreases |s|
  {
    if |s| == 0 then ""
    else if IsSeparator(s[0]) then [d] + CollapseSeparators(DropSeparators(s), d)
    else [s[0]] + CollapseSeparators(s[1..], d)
  }

  /** After `CollapseSeparators` every separator is a lone `d`. */
  lemma {:induction false} CollapseShape(s: string, d: char)
    requires IsSeparator(d)
    ensures NoDoubleSeparators(CollapseSeparators(s, d))
    ensures OnlySeparator(CollapseSeparators(s, d), d)
    decreases |s|
  {
    if |s| > 0 {
      if IsSeparator(s[0]) {
        CollapseShape(DropSeparators(s), d);
      } else {
        CollapseShape(s[1..], d);
      }
    }
  }

  /** `CollapseSeparators` keeps every letter, in order. */
  lemma {:induction false} CollapseKeepsLetters(s: string, d: char)
    requires IsSeparator(d)
    ensures Letters(CollapseSeparators(s, d)) == Letters(s)
    decreases |s|
  {
    if |s| > 0 {
      if IsSeparator(s[0]) {
        var r := DropSeparators(s);
        CollapseKeepsLetters(r, d);
        LettersCons(d, CollapseSeparators(r, d));
        LettersDropSeparators(s);
      } else {
        CollapseKeepsLetters(s[1..], d);
        LettersCons(s[0], CollapseSeparators(s[1..], d));
      }
    }
  }

  /** A separator run becomes one `d`. */
  lemma CollapseAfterRun(x: string, t: string, d: char)
    requires IsSeparatorRun(x) && IsSeparator(d) && (|t| > 0 ==> !IsSeparator(t[0]))
    ensures CollapseSeparators(x + t, d) == [d] + CollapseSeparators(t, d)
  {
    DropRun(x, t);
    assert (x + t)[0] == x[0];
  }

  /** A character other than a separator is copied by `CollapseSeparators`. */
  lemma CollapseCons(c: char, t: string, d: char)
    requires !IsSeparator(c) && IsSeparator(d)
    ensures CollapseSeparators([c] + t, d) == [c] + CollapseSeparators(t, d)
  {
    assert ([c] + t)[1..] == t;
  }

  /** A word is copied unchanged by `CollapseSeparators`. */
  lemma {:induction false} CollapseKeepsWord(w: string, t: string, d: char)
    requires IsWord(w) && IsSeparator(d)
    ensures CollapseSeparators(w + t, d) == w + CollapseSeparators(t, d)
    decreases |w|
  {
    if |w| > 0 {
      CollapseKeepsWord(w[1..], t, d);
      SplitHead(w, t);
      CollapseCons(w[0], w[1..] + t, d);
      SplitHead(w, CollapseSeparators(t, d));
    } else {
      assert w + t == t;
    }
  }

  /** A separator run followed by a word becomes one `d` followed by the word. */
  lemma CollapseSeparatedWord(x: string, w: string, t: string, d: char)
    requires IsSeparatorRun(x) && IsSeparator(d) && IsWord(w) && |w| > 0
    ensures CollapseSeparators(x + (w + t), d) == [d] + (w + CollapseSeparators(t, d))
  {
    assert CollapseSeparators(x + (w + t), d) == [d] + CollapseSeparators(w + t, d) by {
      assert (w + t)[0] == w[0];
      CollapseAfterRun(x, w + t, d);
    }
    CollapseKeepsWord(w, t, d);
  }

  /** A separator run followed by a last word becomes one `d` and the word. */
  lemma CollapseLastWord(x: string, w: string, d: char)
    requires IsSeparatorRun(x) && IsSeparator(d) && IsWord(w) && |w| > 0
    ensures CollapseSeparators(x + w, d) == [d] + w
  {
    assert w + [] == w;
    CollapseSeparatedWord(x, w, [], d);
  }

  /** `CollapseSeparators` leaves alone a string of single `d` separators. */
  lemma {:induction false} CollapseFixed(s: string, d: char)
    requires IsSeparator(d) && NoDoubleSeparators(s) && OnlySeparator(s, d)
    ensures CollapseSeparators(s, d) == s
    decreases |s|
  {
    if |s| > 0 {
      assert NoDoubleSeparators(s[1..]) && OnlySeparator(s[1..], d);
      CollapseFixed(s[1..], d);
      if IsSeparator(s[0]) {
        assert DropSeparators(s) == DropSeparators(s[1..]) == s[1..];
      }
    }
  }

  /** Puts `d` between every word-ending character and an upper-case letter
      right after it. */
  function SplitHumps(s: string, d: char): (r: string)
    requires IsSeparator(d)
    ensures |s| > 0 ==> |r| > 0 && r[0] == s[0]
    decreases |s|
  {
    if |s| < 2 then s
    else if EndsWord(s[0]) && IsUpper(s[1]) then [s[0], d] + SplitHumps(s[1..], d)
    else [s[0]] + SplitHumps(s[1..], d)
  }

  /** After `SplitHumps` no hump is left. */
  lemma {:induction false} SplitHumpsLeavesNoHumps(s: string, d: char)
    requires IsSeparator(d)
    ensures NoHumps(SplitHumps(s, d))
    decreases |s|
  {
    if |s| >= 2 {
      SplitHumpsLeavesNoHumps(s[1..], d);
    }
  }

  /** `SplitHumps` adds a separator only where none is next to it, and only `d`. */
  lemma {:induction false} SplitHumpsKeepsSeparators(s: string, d: char)
    requires IsSeparator(d)
    ensures NoDoubleSeparators(s) ==> NoDoubleSeparators(SplitHumps(s, d))
    ensures OnlySeparator(s, d) ==> OnlySeparator(SplitHumps(s, d), d)
    decreases |s|
  {
    if |s| >= 2 {
      assert NoDoubleSeparators(s) ==> NoDoubleSeparators(s[1..]);
      assert OnlySeparator(s, d) ==> OnlySeparator(s[1..], d);
      SplitHumpsKeepsSeparators(s[1..], d);
    }
  }

  /** `SplitHumps` inserts separators only: the letters are those of `s`. */
  lemma {:induction false} SplitHumpsKeepsLetters(s: string, d: char)
    requires IsSeparator(d)
    ensures Letters(SplitHumps(s, d)) == Letters(s)
    decreases |s|
  {
    if |s| >= 2 {
      var t := SplitHumps(s[1..], d);
      SplitHumpsKeepsLetters(s[1..], d);
      if EndsWord(s[0]) && IsUpper(s[1]) {
        assert [s[0], d] + t == [s[0]] + ([d] + t);
        LettersCons(s[0], [d] + t);
        LettersCons(d, t);
      } else {
        LettersCons(s[0], t);
      }
    }
  }

  /** Whether `d` goes between the end of `a` and the start of `b`: exactly
      when they meet at a hump. */
  function Seam(a: string, b: string, d: char): string {
    if |a| > 0 && |b| > 0 && EndsWord(a[|a| - 1]) && IsUpper(b[0]) then [d] else []
  }

  /** Splitting a concatenation splits each part and adds `d` only where the
      parts meet at a hump: with `SplitHumpsFixed`, `d` goes at the humps and
      nowhere else. */
  lemma {:induction false} SplitHumpsAppend(a: string, b: string, d: char)
    requires IsSeparator(d)
    ensures SplitHumps(a + b, d) == SplitHumps(a, d) + Seam(a, b, d) + SplitHumps(b, d)
    decreases |a|
  {
    if |a| == 0 {
      assert a + b == b;
    } else if |b| == 0 {
      assert a + b == a;
    } else if |a| == 1 {
      SplitHumpsAppendOne(a, b, d);
    } else {
      SplitHumpsAppend(a[1..], b, d);
      SplitHumpsAppendStep(a, b, d);
    }
  }

  /** The split of a string of two or more characters: its first character,
      `d` if the first two form a hump, then the split of the rest. */
  lemma SplitHumpsUnfold(u: string, d: char)
    requires IsSeparator(d) && |u| >= 2
    ensures SplitHumps(u, d) == [u[0]] + Seam([u[0]], [u[1]], d) + SplitHumps(u[1..], d)
  {
  }

  /** The base case: one character, then a non-empty string. */
  lemma SplitHumpsAppendOne(a: string, b: string, d: char)
    requires IsSeparator(d) && |a| == 1 && |b| > 0
    ensures SplitHumps(a + b, d) == SplitHumps(a, d) + Seam(a, b, d) + SplitHumps(b, d)
  {
    var u := a + b;
    assert u[0] == a[0] && u[1] == b[0] && u[1..] == b;
    SplitHumpsUnfold(u, d);
    assert [u[0]] == a;
    assert Seam([u[0]], [u[1]], d) == Seam(a, b, d);
    SplitHumpsOfOne(a, d);
  }

  /** The step: the first two characters of `a` decide the head, and the rest
      is the split of `a[1..] + b`. */
  lemma SplitHumpsAppendStep(a: string, b: string, d: char)
    requires IsSeparator(d) && |a| >= 2
    requires SplitHumps(a[1..] + b, d) == SplitHumps(a[1..], d) + Seam(a[1..], b, d) + SplitHumps(b, d)
    ensures SplitHumps(a + b, d) == SplitHumps(a, d) + Seam(a, b, d) + SplitHumps(b, d)
  {
    var u := a + b;
    var h := [a[0]] + Seam([a[0]], [a[1]], d);
    var t := SplitHumps(a[1..], d);
    assert SplitHumps(u, d) == h + SplitHumps(a[1..] + b, d) by {
      assert u[0] == a[0] && u[1] == a[1] && u[1..] == a[1..] + b;
      SplitHumpsUnfold(u, d);
    }
    assert SplitHumps(a, d) == h + t by {
      SplitHumpsUnfold(a, d);
    }
    SeamOfTail(a, b, d);
    Reassociate(h, t, Seam(a, b, d), SplitHumps(b, d));
  }

  lemma Reassociate(h: string, t: string, m: string, r: string)
    ensures h + (t + m + r) == (h + t) + m + r
  {
  }

  lemma SplitHumpsOfOne(a: string, d: char)
    requires IsSeparator(d) && |a| == 1
    ensures SplitHumps(a, d) == a
  {
  }

  lemma SeamOfTail(a: string, b: string, d: char)
    requires |a| >= 2
    ensures Seam(a[1..], b, d) == Seam(a, b, d)
  {
    assert a[1..][|a| - 2] == a[|a| - 1];
  }

  /** `SplitHumps` leaves alone a string with no hump to split. */
  lemma {:induction false} SplitHumpsFixed(s: string, d: char)
    requires IsSeparator(d) && NoHumps(s)
    ensures SplitHumps(s, d) == s
    decreases |s|
  {
    if |s| >= 2 {
      assert NoHumps(s[1..]);
      SplitHumpsFixed(s[1..], d);
    }
  }

  /** The words of `s` in lower case, separated by single `d`s: the letters
      are those of `s`, lower-cased. */
  function Delimited(s: string, d: char): (r: string)
    requires IsSeparator(d)
    ensures forall i :: 0 <= i < |r| ==> !IsUpper(r[i])
    ensures NoDoubleSeparators(r) && OnlySeparator(r, d)
    ensures Letters(r) == Lower(Letters(s))
  {
    var c := CollapseSeparators(s, d);
    CollapseShape(s, d);
    SplitHumpsKeepsSeparators(c, d);
    CollapseKeepsLetters(s, d);
    SplitHumpsKeepsLetters(c, d);
    LettersOfLower(SplitHumps(c, d));
    Lower(SplitHumps(c, d))
  }

  lemma LowerAppend(a: string, b: string)
    ensures Lower(a + b) == Lower(a) + Lower(b)
  {
    assert forall i :: 0 <= i < |a + b| ==> Lower(a + b)[i] == (Lower(a) + Lower(b))[i];
  }

  /** Two pieces without separators: each is split and lower-cased on its own,
      and one `d` goes between them exactly when they meet at a hump. */
  lemma DelimitedWordsAppend(a: string, b: string, d: char)
    requires IsSeparator(d) && IsWord(a) && IsWord(b)
    ensures Delimited(a + b, d) == Delimited(a, d) + Seam(a, b, d) + Delimited(b, d)
  {
    assert IsWord(a + b) by {
      assert forall i :: 0 <= i < |a + b| ==> (a + b)[i] == if i < |a| then a[i] else b[i - |a|];
    }
    assert forall w :: IsWord(w) ==> CollapseSeparators(w, d) == w by {
      forall w | IsWord(w)
        ensures CollapseSeparators(w, d) == w
      {
        CollapseKeepsWord(w, "", d);
        assert w + "" == w;
      }
    }
    var sa, sb, m := SplitHumps(a, d), SplitHumps(b, d), Seam(a, b, d);
    SplitHumpsAppend(a, b, d);
    LowerAppend(sa + m, sb);
    LowerAppend(sa, m);
    assert Lower(m) == m;
  }

  /** `ToSnakeCase`: lower-case words separated by single underscores. */
  function ToSnakeCase(s: string): (r: string)
    ensures forall i :: 0 <= i < |r| ==> !IsUpper(r[i]) && r[i] != '-'
    ensures forall i :: 0 <= i < |r| - 1 ==> !(r[i] == '_' && r[i + 1] == '_')
    ensures Letters(r) == Lower(Letters(s))
  {
    Delimited(s, '_')
  }

  /** `ToKebabCase`: lower-case words separated by single hyphens. */
  function ToKebabCase(s: string): (r: string)
    ensures forall i :: 0 <= i < |r| ==> !IsUpper(r[i]) && r[i] != '_'
    ensures forall i :: 0 <= i < |r| - 1 ==> !(r[i] == '-' && r[i + 1] == '-')
    ensures Letters(r) == Lower(Letters(s))
  {
    Delimited(s, '-')
  }

  /** `Delimited` is idempotent. */
  lemma DelimitedIdempotent(s: string, d: char)
    requires IsSeparator(d)
    ensures Delimited(Delimited(s, d), d) == Delimited(s, d)
  {
    var r := Delimited(s, d);
    CollapseFixed(r, d);
    SplitHumpsFixed(r, d);
  }

  /** `ToSnakeCase` is idempotent: a snake_case string is already snake_case. */
  lemma SnakeIdempotent(s: string)
    ensures ToSnakeCase(ToSnakeCase(s)) == ToSnakeCase(s)
  {
    DelimitedIdempotent(s, '_');
  }

  /** `ToKebabCase` is idempotent. */
  lemma KebabIdempotent(s: string)
    ensures ToKebabCase(ToKebabCase(s)) == ToKebabCase(s)
  {
    DelimitedIdempotent(s, '-');
  }

  /** `s` with every underscore turned into a hyphen. */
  function Hyphenate(s: string): (r: string)
    ensures |r| == |s|
    ensures forall i :: 0 <= i < |s| ==> r[i] == if s[i] == '_' then '-' else s[i]
  {
    if |s| == 0 then "" else [if s[0] == '_' then '-' else s[0]] + Hyphenate(s[1..])
  }

  lemma {:induction false} CollapseHyphenates(s: string)
    ensures CollapseSeparators(s, '-') == Hyphenate(CollapseSeparators(s, '_'))
    decreases |s|
  {
    if |s| > 0 {
      if IsSeparator(s[0]) {
        CollapseHyphenates(DropSeparators(s));
      } else {
        CollapseHyphenates(s[1..]);
      }
    }
  }

  lemma {:induction false} SplitHumpsHyphenates(t: string)
    ensures SplitHumps(Hyphenate(t), '-') == Hyphenate(SplitHumps(t, '_'))
    decreases |t|
  {
    if |t| >= 2 {
      assert Hyphenate(t)[1..] == Hyphenate(t[1..]);
      SplitHumpsHyphenates(t[1..]);
    }
  }

  /** kebab-case is snake_case with hyphens for underscores. */
  lemma KebabIsHyphenatedSnake(s: string)
    ensures ToKebabCase(s) == Hyphenate(ToSnakeCase(s))
  {
    CollapseHyphenates(s);
    SplitHumpsHyphenates(CollapseSeparators(s, '_'));
  }

  // Three words: the shape of the documented examples.

  lemma Regroup(a: string, x: string, b: string, y: string, c: string)
    ensures a + x + b + y + c == a + (x + (b + (y + c)))
  {
  }

  /** Three words joined by separator runs: the first is kept, the other two
      are capitalised. */
  lemma JoinThreeWords(a: string, x: string, b: string, y: string, c: string)
    requires IsWord(a) && IsWord(b) && IsWord(c) && |b| > 0 && |c| > 0
    requires IsSeparatorRun(x) && IsSeparatorRun(y)
    ensures JoinWords(a + x + b + y + c) == a + (UpperFirst(b) + UpperFirst(c))
  {
    Regroup(a, x, b, y, c);
    assert JoinWords(y + c) == UpperFirst(c) by {
      JoinWordsLastWord(y, c);
    }
    assert JoinWords(x + (b + (y + c))) == UpperFirst(b) + UpperFirst(c) by {
      JoinWordsCapitalises(x, b, y + c);
    }
    JoinWordsKeepsWord(a, x + (b + (y + c)));
  }

  /** Three words joined by separator runs: each run becomes one `d`. */
  lemma CollapseThreeWords(a: string, x: string, b: string, y: string, c: string, d: char)
    requires IsWord(a) && IsWord(b) && IsWord(c) && |b| > 0 && |c| > 0
    requires IsSeparatorRun(x) && IsSeparatorRun(y) && IsSeparator(d)
    ensures CollapseSeparators(a + x + b + y + c, d) == a + ([d] + (b + ([d] + c)))
  {
    Regroup(a, x, b, y, c);
    assert CollapseSeparators(y + c, d) == [d] + c by {
      CollapseLastWord(y, c, d);
    }
    assert CollapseSeparators(x + (b + (y + c)), d) == [d] + (b + ([d] + c)) by {
      CollapseSeparatedWord(x, b, y + c, d);
    }
    CollapseKeepsWord(a, x + (b + (y + c)), d);
  }

  // The documented examples, on "Hello_world-abc".

  lemma JoinExample(s: string)
    requires s == "Hello_world-abc"
    ensures JoinWords(s) == "HelloWorldAbc"
  {
    assert s == "Hello" + "_" + "world" + "-" + "abc";
    assert IsSeparatorRun("_") && IsSeparatorRun("-");
    assert UpperFirst("world") == "World";
    assert UpperFirst("abc") == "Abc";
    assert "Hello" + ("World" + "Abc") == "HelloWorldAbc";
    JoinThreeWords("Hello", "_", "world", "-", "abc");
  }

  lemma CamelExample(s: string)
    requires s == "Hello_world-abc"
    ensures ToCamelCase(s) == "helloWorldAbc"
  {
    JoinExample(s);
  }

  lemma PascalExample(s: string)
    requires s == "Hello_world-abc"
    ensures ToPascalCase(s) == "HelloWorldAbc"
  {
    JoinExample(s);
  }

  lemma CollapseExample(s: string)
    requires s == "Hello_world-abc"
    ensures CollapseSeparators(s, '_') == "Hello_world_abc"
  {
    assert s == "Hello" + "_" + "world" + "-" + "abc";
    assert IsSeparatorRun("_") && IsSeparatorRun("-");
    assert "Hello" + (['_'] + ("world" + (['_'] + "abc"))) == "Hello_world_abc";
    CollapseThreeWords("Hello", "_", "world", "-", "abc", '_');
  }

  lemma LowerCollapsedExample(c: string)
    requires c == "Hello_world_abc"
    ensures Lower(SplitHumps(c, '_')) == "hello_world_abc"
  {
    assert NoHumps(c);
    SplitHumpsFixed(c, '_');
  }

  lemma SnakeExample(s: string)
    requires s == "Hello_world-abc"
    ensures ToSnakeCase(s) == "hello_world_abc"
  {
    CollapseExample(s);
    LowerCollapsedExample(CollapseSeparators(s, '_'));
  }

  lemma KebabExample(s: string)
    requires s == "Hello_world-abc"
    ensures ToKebabCase(s) == "hello-world-abc"
  {
    SnakeExample(s);
    KebabIsHyphenatedSnake(s);
  }

  // A lower-to-upper boundary.

  /** The hump in `"helloWorld"` becomes one `_`. */
  lemma SplitHumpExample(c: string)
    requires c == "helloWorld"
    ensures SplitHumps(c, '_') == "hello_World"
  {
    HumpPieces();
    var a, b := "hello", "World";
    assert SplitHumps(a, '_') == a by {
      assert NoHumps(a);
      SplitHumpsFixed(a, '_');
    }
    assert SplitHumps(b, '_') == b by {
      assert NoHumps(b);
      SplitHumpsFixed(b, '_');
    }
    assert Seam(a, b, '_') == "_";
    SplitHumpsAppend(a, b, '_');
  }

  lemma HumpPieces()
    ensures "helloWorld" == "hello" + "World"
    ensures "hello" + "_" + "World" == "hello_World"
  {
  }

  lemma SnakeHumpExample(s: string)
    requires s == "helloWorld"
    ensures ToSnakeCase(s) == "hello_world"
  {
    assert CollapseSeparators(s, '_') == s by {
      assert NoDoubleSeparators(s) && OnlySeparator(s, '_');
      CollapseFixed(s, '_');
    }
    SplitHumpExample(s);
  }

  lemma KebabHumpExample(s: string)
    requires s == "helloWorld"
    ensures ToKebabCase(s) == "hello-world"
  {
    SnakeHumpExample(s);
    KebabIsHyphenatedSnake(s);
  }

  // Longer separator runs.

  /** A run of two underscores is dropped like one. */
  lemma CamelRunExample(s: string)
    requires s == "hello__world"
    ensures ToCamelCase(s) == "helloWorld"
  {
    assert s == "hello" + ("__" + "world");
    assert IsSeparatorRun("__");
    assert JoinWords("__" + "world") == "World" by {
      JoinWordsLastWord("__", "world");
      assert UpperFirst("world") == "World";
    }
    JoinWordsKeepsWord("hello", "__" + "world");
    assert "hello" + "World" == "helloWorld";
  }

  /** A run of two hyphens becomes one underscore. */
  lemma SnakeRunExample(s: string)
    requires s == "hello--World"
    ensures ToSnakeCase(s) == "hello_world"
  {
    CollapseRunExample(s);
    LowerRunExample(CollapseSeparators(s, '_'));
  }

  lemma CollapseRunExample(s: string)
    requires s == "hello--World"
    ensures CollapseSeparators(s, '_') == "hello_World"
  {
    assert s == "hello" + ("--" + "World");
    assert IsSeparatorRun("--");
    CollapseLastWord("--", "World", '_');
    CollapseKeepsWord("hello", "--" + "World", '_');
    assert "hello" + (['_'] + "World") == "hello_World";
  }

  lemma LowerRunExample(c: string)
    requires c == "hello_World"
    ensures Lower(SplitHumps(c, '_')) == "hello_world"
  {
    assert NoHumps(c);
    SplitHumpsFixed(c, '_');
  }
}

=== FILE: string_util.dfy ===
/**
 * The string toolkit `StringUtil`. Strings are Lua strings: each character
 * stands for one byte, whitespace is the `%s` class of Lua patterns and case
 * conversion follows Lua's `string.lower`/`string.upper`, which change only the
 * ASCII letters.
 */
module StringUtil {
  import opened Wrappers

  /** The `%s` class: space, tab, newline, vertical tab, form feed, carriage return. */
  predicate IsSpace(c: char) {
    c == ' ' || c == '\t' || c == '\n' || c == '\U{B}' || c == '\U{C}' || c == '\r'
  }

  predicate IsUpper(c: char) { 'A' <= c <= 'Z' }

  predicate IsLower(c: char) { 'a' <= c <= 'z' }

  function ToLowerChar(c: char): (r: char)
    ensures !IsUpper(r)
    ensures IsUpper(c) ==> r as int == c as int + 32
    ensures !IsUpper(c) ==> r == c
  {
    if IsUpper(c) then (c as int + 32) as char else c
  }

  function ToUpperChar(c: char): (r: char)
    ensures !IsLower(r)
    ensures IsLower(c) ==> r as int == c as int - 32
    ensures !IsLower(c) ==> r == c
  {
    if IsLower(c) then (c as int - 32) as char else c
  }

  /** `string.lower`. */
  function Lower(s: string): (r: string)
    ensures |r| == |s| && forall i :: 0 <= i < |s| ==> r[i] == ToLowerChar(s[i])
  {
    if |s| == 0 then "" else [ToLowerChar(s[0])] + Lower(s[1..])
  }

  // ---------------------------------------------------------------- trimming

  /** The index of the first character at or after `i` that is not
      whitespace, or `|s|` if there is none. */
  function TextStart(s: string, i: nat): (r: nat)
    requires i <= |s|
    ensures i <= r <= |s|
    ensures forall j :: i <= j < r ==> IsSpace(s[j])
    ensures r < |s| ==> !IsSpace(s[r])
    decreases |s| - i
  {
    if i < |s| && IsSpace(s[i]) then TextStart(s, i + 1) else i
  }

  /** The index just past the last character before `n` that is not
      whitespace, looking no further back than `lo`. */
  function TextEnd(s: string, lo: nat, n: nat): (r: nat)
    requires lo <= n <= |s|
    ensures lo <= r <= n
    ensures forall j :: r <= j < n ==> IsSpace(s[j])
    ensures r > lo ==> !IsSpace(s[r - 1])
    decreases n
  {
    if n > lo && IsSpace(s[n - 1]) then TextEnd(s, lo, n - 1) else n
  }

  /** Only one index has whitespace from `i` up to it and none at it. */
  lemma TextStartUnique(s: string, i: nat, k: nat)
    requires i <= k <= |s|
    requires forall j :: i <= j < k ==> IsSpace(s[j])
    requires k < |s| ==> !IsSpace(s[k])
    ensures TextStart(s, i) == k
  {
  }

  /** Only one index above `lo` has whitespace from it up to `n` and none
      just before it. */
  lemma TextEndUnique(s: string, lo: nat, n: nat, k: nat)
    requires lo <= k <= n <= |s|
    requires forall j :: k <= j < n ==> IsSpace(s[j])
    requires k > lo ==> !IsSpace(s[k - 1])
    ensures TextEnd(s, lo, n) == k
  {
  }

  /** `TrimStart`: drops the leading whitespace and nothing else. */
  function TrimStart(s: string): (r: string)
    ensures |r| <= |s| && r == s[|s| - |r|..]
    ensures forall i :: 0 <= i < |s| - |r| ==> IsSpace(s[i])
    ensures |r| > 0 ==> !IsSpace(r[0])
  {
    s[TextStart(s, 0)..]
  }

  /** `TrimEnd`: drops the trailing whitespace and nothing else. */
  function TrimEnd(s: string): (r: string)
    ensures |r| <= |s| && r == s[..|r|]
    ensures forall i :: |r| <= i < |s| ==> IsSpace(s[i])
    ensures |r| > 0 ==> !IsSpace(r[|r| - 1])
  {
    s[..TextEnd(s, 0, |s|)]
  }

  /** `Trim`: the slice of `s` left after dropping whitespace at both ends. */
  function Trim(s: string): (r: string)
    ensures var start := |s| - |TrimStart(s)|;
      && start + |r| <= |s| && r == s[start..start + |r|]
      && (forall i :: 0 <= i < start ==> IsSpace(s[i]))
      && (forall i :: start + |r| <= i < |s| ==> IsSpace(s[i]))
    ensures |r| > 0 ==> !IsSpace(r[0]) && !IsSpace(r[|r| - 1])
  {
    var start := TextStart(s, 0);
    s[start..TextEnd(s, start, |s|)]
  }

  /** Trimming gives the only slice of `s` that has whitespace all around it
      and none at its own ends. */
  lemma TrimCharacterised(s: string, i: nat, n: nat)
    requires i + n <= |s|
    requires forall j :: 0 <= j < i ==> IsSpace(s[j])
    requires forall j :: i + n <= j < |s| ==> IsSpace(s[j])
    requires n > 0 ==> !IsSpace(s[i]) && !IsSpace(s[i + n - 1])
    ensures Trim(s) == s[i..i + n]
  {
    if n > 0 {
      TextStartUnique(s, 0, i);
      TextEndUnique(s, i, |s|, i + n);
    } else {
      TextStartUnique(s, 0, |s|);
    }
  }

  /** A string without whitespace at either end is its own trim. */
  lemma TrimmedIsFixed(s: string)
    requires |s| > 0 ==> !IsSpace(s[0]) && !IsSpace(s[|s| - 1])
    ensures Trim(s) == s
  {
    TrimCharacterised(s, 0, |s|);
    assert s[0..|s|] == s;
  }

  /** Trimming is idempotent. */
  lemma TrimIdempotent(s: string)
    ensures Trim(Trim(s)) == Trim(s)
  {
    TrimmedIsFixed(Trim(s));
  }

  /** Trimming the front then the back is trimming the back then the front. */
  lemma TrimOrderIrrelevant(s: string)
    ensures TrimStart(TrimEnd(s)) == Trim(s)
  {
    var e := TextEnd(s, 0, |s|);
    var back := s[..e];
    var a := TextStart(back, 0);
    assert back[a..] == s[a..e];
    forall j | 0 <= j < a
      ensures IsSpace(s[j])
    {
      assert s[j] == back[j];
    }
    if a < e {
      assert s[a] == back[a];
    }
    TrimCharacterised(s, a, e - a);
  }

  /** `TrimStart` keeps everything from the first non-whitespace character on. */
  lemma TrimStartCharacterised(s: string, i: nat)
    requires i <= |s|
    requires forall j :: 0 <= j < i ==> IsSpace(s[j])
    requires i < |s| ==> !IsSpace(s[i])
    ensures TrimStart(s) == s[i..]
  {
    TextStartUnique(s, 0, i);
  }

  /** `TrimEnd` keeps everything up to the last non-whitespace character. */
  lemma TrimEndCharacterised(s: string, n: nat)
    requires n <= |s|
    requires forall j :: n <= j < |s| ==> IsSpace(s[j])
    requires n > 0 ==> !IsSpace(s[n - 1])
    ensures TrimEnd(s) == s[..n]
  {
    TextEndUnique(s, 0, |s|, n);
  }

  lemma TrimExample(s: string)
    requires s == "  hello world  "
    ensures Trim(s) == "hello world"
  {
    TrimCharacterised(s, 2, 11);
  }

  lemma TrimStartExample(s: string)
    requires s == "  hello world  "
    ensures TrimStart(s) == "hello world  "
  {
    TrimStartCharacterised(s, 2);
  }

  lemma TrimEndExample(s: string)
    requires s == "  hello world  "
    ensures TrimEnd(s) == "  hello world"
  {
    TrimEndCharacterised(s, 13);
  }

  // ------------------------------------------------------ case-insensitivity

  /** `EqualsIgnoreCase`: compares the strings character by character after
      folding ASCII upper case to lower case. */
  method EqualsIgnoreCase(a: string, b: string) returns (r: bool)
    ensures r <==> Lower(a) == Lower(b)
  {
    if |a| != |b| {
      return false;
    }
    var i := 0;
    while i < |a|
      invariant 0 <= i <= |a|
      invariant forall j :: 0 <= j < i ==> ToLowerChar(a[j]) == ToLowerChar(b[j])
    {
      if ToLowerChar(a[i]) != ToLowerChar(b[i]) {
        assert Lower(a)[i] != Lower(b)[i];
        return false;
      }
      i := i + 1;
    }
    return true;
  }

  lemma EqualsIgnoreCaseExample()
    ensures Lower("HELLo woRLD") == Lower("hEllo wORLd")
  {
  }

  // ------------------------------------------------------------- whitespace

  /** `RemoveWhitespace`: keeps the non-whitespace characters, in order. */
  function RemoveWhitespace(s: string): (r: string)
    ensures |r| <= |s|
    ensures forall i :: 0 <= i < |r| ==> !IsSpace(r[i])
  {
    if |s| == 0 then ""
    else if IsSpace(s[0]) then RemoveWhitespace(s[1..])
    else [s[0]] + RemoveWhitespace(s[1..])
  }

  /** Removing whitespace commutes with concatenation. With the next lemma it
      fixes the result: each character is kept exactly when it is not
      whitespace, in its original position relative to the others. */
  lemma {:induction false} RemoveWhitespaceAppend(a: string, b: string)
    ensures RemoveWhitespace(a + b) == RemoveWhitespace(a) + RemoveWhitespace(b)
    decreases |a|
  {
    if |a| > 0 {
      assert (a + b)[1..] == a[1..] + b;
      RemoveWhitespaceAppend(a[1..], b);
    } else {
      assert a + b == b;
    }
  }

  /** A string of whitespace only is removed entirely. */
  lemma {:induction false} RemoveWhitespaceOfSpaces(s: string)
    requires forall i :: 0 <= i < |s| ==> IsSpace(s[i])
    ensures RemoveWhitespace(s) == ""
    decreases |s|
  {
    if |s| > 0 {
      RemoveWhitespaceOfSpaces(s[1..]);
    }
  }

  lemma RemoveWhitespaceChar(c: char)
    ensures RemoveWhitespace([c]) == if IsSpace(c) then "" else [c]
  {
  }

  /** A string without whitespace is left unchanged. */
  lemma {:induction false} RemoveWhitespaceKeepsText(s: string)
    requires forall i :: 0 <= i < |s| ==> !IsSpace(s[i])
    ensures RemoveWhitespace(s) == s
    decreases |s|
  {
    if |s| > 0 {
      RemoveWhitespaceKeepsText(s[1..]);
    }
  }

  /** Any four cut points split a string into five consecutive slices. */
  lemma SplitFive(s: string, i: nat, j: nat, k: nat, l: nat)
    requires i <= j <= k <= l <= |s|
    ensures s == s[..i] + (s[i..j] + (s[j..k] + (s[k..l] + s[l..])))
  {
  }

  /** The documented example. */
  lemma RemoveWhitespaceExample(s: string)
    requires s == "  hello World!\n"
    ensures RemoveWhitespace(s) == "helloWorld!"
  {
    var a, b, c, d, e := s[..2], s[2..7], s[7..8], s[8..14], s[14..];
    SplitFive(s, 2, 7, 8, 14);
    assert a == "  ";
    assert b == "hello";
    assert c == " ";
    assert d == "World!";
    assert e == "\n";
    assert "" + (b + ("" + (d + ""))) == "helloWorld!";
    assert RemoveWhitespace(a) == "" by { RemoveWhitespaceOfSpaces(a); }
    assert RemoveWhitespace(c) == "" by { RemoveWhitespaceOfSpaces(c); }
    assert RemoveWhitespace(e) == "" by { RemoveWhitespaceOfSpaces(e); }
    assert RemoveWhitespace(b) == b by { RemoveWhitespaceKeepsText(b); }
    assert RemoveWhitespace(d) == d by { RemoveWhitespaceKeepsText(d); }
    assert RemoveWhitespace(s) == RemoveWhitespace(a) + (RemoveWhitespace(b)
      + (RemoveWhitespace(c) + (RemoveWhitespace(d) + RemoveWhitespace(e)))) by {
      RemoveWhitespaceAppend(a, b + (c + (d + e)));
      RemoveWhitespaceAppend(b, c + (d + e));
      RemoveWhitespaceAppend(c, d + e);
      RemoveWhitespaceAppend(d, e);
    }
  }


  // ------------------------------------------------------- prefix and suffix

  /** `StartsWith`: the first `|prefix|` characters of `s` are `prefix`. */
  function StartsWith(s: string, prefix: string): (r: bool)
    ensures r <==> exists rest :: s == prefix + rest
  {
    if |prefix| <= |s| && s[..|prefix|] == prefix then
      assert s == prefix + s[|prefix|..];
      true
    else
      false
  }

  /** `EndsWith`: the last `|suffix|` characters of `s` are `suffix`. */
  function EndsWith(s: string, suffix: string): (r: bool)
    ensures r <==> exists rest :: s == rest + suffix
  {
    if |suffix| <= |s| && s[|s| - |suffix|..] == suffix then
      assert s == s[..|s| - |suffix|] + suffix;
      true
    else
      false
  }

  /** `s` holds `part` starting at index `i`. */
  predicate Occurs(s: string, part: string, i: int) {
    0 <= i && i + |part| <= |s| && s[i..i + |part|] == part
  }

  /** `Contains`: a plain (non-pattern) search for `part` in `s`. */
  method Contains(s: string, part: string) returns (r: bool)
    ensures r <==> exists i :: Occurs(s, part, i)
  {
    if |part| > |s| {
      return false;
    }
    var i := 0;
    while i <= |s| - |part|
      invariant 0 <= i <= |s| - |part| + 1
      invariant forall j :: 0 <= j < i ==> !Occurs(s, part, j)
    {
      if s[i..i + |part|] == part {
        assert Occurs(s, part, i);
        return true;
      }
      i := i + 1;
    }
    return false;
  }

  /** `part` occurs in `s` exactly when `s` splits around it. */
  lemma OccursIffSplit(s: string, part: string)
    ensures (exists i :: Occurs(s, part, i)) <==> (exists a, b :: s == a + part + b)
  {
    if exists i :: Occurs(s, part, i) {
      var i :| Occurs(s, part, i);
      assert s == s[..i] + part + s[i + |part|..];
    }
    if exists a, b :: s == a + part + b {
      var a, b :| s == a + part + b;
      assert s[|a|..|a| + |part|] == part;
      assert Occurs(s, part, |a|);
    }
  }

  /** A prefix or a suffix is contained. */
  lemma StartsOrEndsWithImpliesContains(s: string, part: string)
    requires StartsWith(s, part) || EndsWith(s, part)
    ensures exists i :: Occurs(s, part, i)
  {
    if StartsWith(s, part) {
      assert Occurs(s, part, 0);
    } else {
      assert Occurs(s, part, |s| - |part|);
    }
  }

  lemma SearchExamples()
    ensures EndsWith("Hello world", "rld")
    ensures StartsWith("Hello world", "He")
    ensures Occurs("Hello world", "lo wor", 3)
  {
  }

  // ------------------------------------------------- character and byte arrays

  /** The concatenation of a list of strings, as `table.concat` does it. */
  function Concat(parts: seq<string>): string {
    if |parts| == 0 then "" else parts[0] + Concat(parts[1..])
  }

  lemma {:induction false} ConcatAppend(parts: seq<string>, last: string)
    ensures Concat(parts + [last]) == Concat(parts) + last
    decreases |parts|
  {
    if |parts| > 0 {
      assert (parts + [last])[1..] == parts[1..] + [last];
      ConcatAppend(parts[1..], last);
    }
  }

  /** `ToCharArray`: one single-character string per character. */
  function ToCharArray(s: string): (r: seq<string>)
    ensures |r| == |s|
    ensures forall i :: 0 <= i < |r| ==> |r[i]| == 1 && r[i][0] == s[i]
  {
    seq(|s|, i requires 0 <= i < |s| => [s[i]])
  }

  /** Joining the characters back gives the string. */
  lemma {:induction false} ToCharArrayConcat(s: string)
    ensures Concat(ToCharArray(s)) == s
    decreases |s|
  {
    if |s| > 0 {
      assert ToCharArray(s)[1..] == ToCharArray(s[1..]);
      ToCharArrayConcat(s[1..]);
      assert ToCharArray(s)[0] == [s[0]];
    }
  }

  lemma ToCharArrayExample()
    ensures ToCharArray("Hello") == ["H", "e", "l", "l", "o"]
  {
  }

  /** A Lua string: every character is a byte. */
  predicate IsByteString(s: string) {
    forall i :: 0 <= i < |s| ==> s[i] as int < 256
  }

  /** `ToByteArray`: the byte of each character, as `string.byte` gives it. */
  function ToByteArray(s: string): (r: seq<int>)
    ensures |r| == |s|
    ensures forall i :: 0 <= i < |s| ==> r[i] == s[i] as int
  {
    seq(|s|, i requires 0 <= i < |s| => s[i] as int)
  }

  /** `ByteArrayToString`: the string with the given bytes, as `string.char`
      builds it. A number outside 0..255 is an error; the error carries the
      position of the first such number. */
  function ByteArrayToString(bytes: seq<int>): (r: Result<string, nat>)
    ensures r.Ok? ==> |r.value| == |bytes|
    ensures r.Ok? ==> forall i :: 0 <= i < |bytes| ==> r.value[i] as int == bytes[i]
    ensures r.Err? ==> r.error < |bytes| && !(0 <= bytes[r.error] < 256)
    ensures r.Err? ==> forall i :: 0 <= i < r.error ==> 0 <= bytes[i] < 256
  {
    if |bytes| == 0 then Ok("")
    else if !(0 <= bytes[0] < 256) then Err(0)
    else
      match ByteArrayToString(bytes[1..])
      case Ok(t) => Ok([bytes[0] as char] + t)
      case Err(i) => Err(i + 1)
  }

  /** The string built from bytes gives back those bytes. */
  lemma BytesRoundTrip(bytes: seq<int>)
    requires ByteArrayToString(bytes).Ok?
    ensures var s := ByteArrayToString(bytes).value;
      IsByteString(s) && ToByteArray(s) == bytes
  {
  }

  /** Every list of bytes turns into a string, and only lists of bytes do. */
  lemma {:induction false} ByteArrayToStringTotal(bytes: seq<int>)
    ensures ByteArrayToString(bytes).Ok? <==> forall i :: 0 <= i < |bytes| ==> 0 <= bytes[i] < 256
    decreases |bytes|
  {
    if |bytes| > 0 {
      ByteArrayToStringTotal(bytes[1..]);
      assert forall i :: 1 <= i < |bytes| ==> bytes[i] == bytes[1..][i - 1];
    }
  }

  /** The bytes of a Lua string turn back into the same string. */
  lemma ByteRoundTrip(s: string)
    requires IsByteString(s)
    ensures ByteArrayToString(ToByteArray(s)) == Ok(s)
  {
    var bytes := ToByteArray(s);
    ByteArrayToStringTotal(bytes);
    var t := ByteArrayToString(bytes).value;
    assert |t| == |s|;
    forall i | 0 <= i < |s| ensures t[i] == s[i] {
      assert ToByteArray(t)[i] == bytes[i];
    }
    assert t == s;
  }

  lemma ByteArrayExamples()
    ensures ToByteArray("Hello") == [72, 101, 108, 108, 111]
    ensures ByteArrayToString([97, 98, 99]) == Ok("abc")
    ensures ByteArrayToString([97, 256]) == Err(1)
  {
    ByteRoundTrip("abc");
    assert ToByteArray("abc") == [97, 98, 99];
  }

  // ----------------------------------------------------------------- escaping

  /** The magic characters of Lua patterns (section 5.4.1 of the Lua 5.1
      Reference Manual). */
  predicate IsMagic(c: char) {
    c == '^' || c == '$' || c == '(' || c == ')' || c == '%' || c == '.'
    || c == '[' || c == ']' || c == '*' || c == '+' || c == '-' || c == '?'
  }

  predicate IsAlphanumeric(c: char) {
    IsUpper(c) || IsLower(c) || '0' <= c <= '9'
  }

  /** A Lua pattern made only of single-character classes that each stand for
      one fixed character: a plain non-magic character, or `%x` with `x` not
      alphanumeric. */
  predicate IsLiteralPattern(p: string)
    decreases |p|
  {
    if |p| == 0 then true
    else if p[0] == '%' then |p| >= 2 && !IsAlphanumeric(p[1]) && IsLiteralPattern(p[2..])
    else !IsMagic(p[0]) && IsLiteralPattern(p[1..])
  }

  /** The one string a literal pattern matches. */
  function PatternText(p: string): string
    requires IsLiteralPattern(p)
    decreases |p|
  {
    if |p| == 0 then ""
    else if p[0] == '%' then [p[1]] + PatternText(p[2..])
    else [p[0]] + PatternText(p[1..])
  }

  /** `Escape`: puts `%` before every magic character, so the result is a
      pattern that matches exactly `s`. */
  function Escape(s: string): (r: string)
    ensures |s| <= |r| <= 2 * |s|
    decreases |s|
  {
    if |s| == 0 then ""
    else if IsMagic(s[0]) then ['%', s[0]] + Escape(s[1..])
    else [s[0]] + Escape(s[1..])
  }

  /** The escape of `s` is a literal pattern, and the one string it matches
      is `s`: escaping is inverted by reading the pattern back. */
  lemma {:induction false} EscapeIsLiteral(s: string)
    ensures IsLiteralPattern(Escape(s)) && PatternText(Escape(s)) == s
    decreases |s|
  {
    if |s| > 0 {
      var t := Escape(s[1..]);
      EscapeIsLiteral(s[1..]);
      if IsMagic(s[0]) {
        assert (['%', s[0]] + t)[2..] == t;
      } else {
        assert ([s[0]] + t)[1..] == t;
      }
      assert s == [s[0]] + s[1..];
    }
  }

  /** Escaping adds one `%` per magic character and changes nothing else:
      it commutes with concatenation, and it fixes every other character. */
  lemma {:induction false} EscapeAppend(a: string, b: string)
    ensures Escape(a + b) == Escape(a) + Escape(b)
    decreases |a|
  {
    if |a| > 0 {
      var c, t := a[0], a[1..];
      var e := if IsMagic(c) then ['%', c] else [c];
      assert Escape(a + b) == e + Escape(t + b) by {
        assert a + b == [c] + (t + b);
        EscapeCons(c, t + b);
      }
      assert Escape(a) == e + Escape(t) by {
        assert a == [c] + t;
        EscapeCons(c, t);
      }
      EscapeAppend(t, b);
      assert e + (Escape(t) + Escape(b)) == e + Escape(t) + Escape(b);
    } else {
      assert a + b == b;
    }
  }

  /** One character followed by more: its escape, then the rest's. */
  lemma EscapeCons(c: char, t: string)
    ensures Escape([c] + t) == (if IsMagic(c) then ['%', c] else [c]) + Escape(t)
  {
    assert ([c] + t)[1..] == t;
  }

  /** A string without magic characters is its own escape. */
  lemma {:induction false} EscapeKeepsPlain(s: string)
    requires forall i :: 0 <= i < |s| ==> !IsMagic(s[i])
    ensures Escape(s) == s
    decreases |s|
  {
    if |s| > 0 {
      EscapeKeepsPlain(s[1..]);
    }
  }

  lemma EscapeChar(c: char)
    ensures Escape([c]) == if IsMagic(c) then ['%', c] else [c]
  {
  }

  lemma EscapeTailExample(e: string)
    requires e == " ^-^"
    ensures Escape(e) == " %^%-%^"
  {
    assert e == [' '] + (['^'] + (['-'] + ['^']));
    assert " %^%-%^" == [' '] + (['%', '^'] + (['%', '-'] + ['%', '^']));
    assert Escape(e) == Escape([' ']) + (Escape(['^']) + (Escape(['-']) + Escape(['^']))) by {
      EscapeAppend([' '], ['^'] + (['-'] + ['^']));
      EscapeAppend(['^'], ['-'] + ['^']);
      EscapeAppend(['-'], ['^']);
    }
    EscapeChar(' ');
    EscapeChar('^');
    EscapeChar('-');
  }

  lemma ExamplePieces()
    ensures "Hello. World$ ^-^" == "Hello" + ("." + (" World" + ("$" + " ^-^")))
  {
  }

  lemma EscapedPieces()
    ensures "Hello" + ("%." + (" World" + ("%$" + " %^%-%^"))) == "Hello%. World%$ %^%-%^"
  {
  }

  /** The documented example. */
  lemma EscapeExample(s: string)
    requires s == "Hello. World$ ^-^"
    ensures Escape(s) == "Hello%. World%$ %^%-%^"
  {
    var a, b, c, d, e := "Hello", ".", " World", "$", " ^-^";
    assert s == a + (b + (c + (d + e))) by { ExamplePieces(); }
    EscapedPieces();
    assert Escape(a) == a by { EscapeKeepsPlain(a); }
    assert Escape(c) == c by { EscapeKeepsPlain(c); }
    assert Escape(b) == "%." by { EscapeChar('.'); }
    assert Escape(d) == "%$" by { EscapeChar('$'); }
    assert Escape(e) == " %^%-%^" by { EscapeTailExample(e); }
    assert Escape(s) == Escape(a) + (Escape(b) + (Escape(c) + (Escape(d) + Escape(e)))) by {
      EscapeAppend(a, b + (c + (d + e)));
      EscapeAppend(b, c + (d + e));
      EscapeAppend(c, d + e);
      EscapeAppend(d, e);
    }
  }

  // ----------------------------------------------------------- StringBuilder

  /** The pieces collected so far, joined only when the string is asked for. */
  datatype StringBuilder = StringBuilder(parts: seq<string>)

  function NewStringBuilder(): (b: StringBuilder)
    ensures ToString(b) == ""
  {
    StringBuilder([])
  }

  /** `ToString()`: the parts joined in order, so the built string starts
      with the first part and ends with the last. */
  function ToString(b: StringBuilder): (r: string)
    ensures |b.parts| == 0 ==> r == ""
    ensures |b.parts| > 0 ==> b.parts[0] <= r
    ensures |b.parts| > 0 ==> var last := b.parts[|b.parts| - 1];
      |last| <= |r| && r[|r| - |last|..] == last
  {
    ConcatEndsWithLast(b.parts);
    Concat(b.parts)
  }

  lemma ConcatEndsWithLast(parts: seq<string>)
    ensures |parts| > 0 ==> var last := parts[|parts| - 1];
      |last| <= |Concat(parts)| && Concat(parts)[|Concat(parts)| - |last|..] == last
  {
    if |parts| > 0 {
      var n := |parts| - 1;
      assert parts == parts[..n] + [parts[n]];
      ConcatAppend(parts[..n], parts[n]);
    }
  }

  /** Building from two lists of parts joins their two strings. */
  lemma {:induction false} ToStringJoin(b: StringBuilder, c: StringBuilder)
    ensures ToString(StringBuilder(b.parts + c.parts)) == ToString(b) + ToString(c)
    decreases |b.parts|
  {
    if |b.parts| > 0 {
      assert (b.parts + c.parts)[1..] == b.parts[1..] + c.parts;
      ToStringJoin(StringBuilder(b.parts[1..]), c);
    } else {
      assert b.parts + c.parts == c.parts;
    }
  }

  /** `Append(str)`: the built string gains `str` at the end. */
  function Append(b: StringBuilder, str: string): (r: StringBuilder)
    ensures ToString(r) == ToString(b) + str
  {
    ConcatAppend(b.parts, str);
    StringBuilder(b.parts + [str])
  }

  /** `Prepend(str)`: the built string gains `str` at the front. */
  function Prepend(b: StringBuilder, str: string): (r: StringBuilder)
    ensures ToString(r) == str + ToString(b)
  {
    assert ([str] + b.parts)[1..] == b.parts;
    StringBuilder([str] + b.parts)
  }

  /** Appends keep call order, and prepends stack up at the front. */
  lemma BuilderOrder(b: StringBuilder, x: string, y: string)
    ensures ToString(Append(Append(b, x), y)) == ToString(b) + x + y
    ensures ToString(Prepend(Prepend(b, x), y)) == y + x + ToString(b)
    ensures ToString(Prepend(Append(b, x), y)) == y + ToString(b) + x
  {
  }

  lemma BuilderExample()
    ensures ToString(Prepend(Append(NewStringBuilder(), "world"), "Hello ")) == "Hello world"
  {
  }
}

=== FILE: wrappers.dfy ===
/** Option and Result datatypes used for undefined values and for failed promises. */
module Wrappers {

  /** A value that may be absent; `None` stands for Lua's `nil` / TypeScript's `undefined`. */
  datatype Option<+T> = None | Some(value: T)

  /** The settled state of a promise: resolved with a value or rejected with an error. */
  datatype Result<+T, +E> = Ok(value: T) | Err(error: E)
}
